=== FILE: README.md ===
# Delivery operations dashboard: the simulation core in Dafny

The dashboard's four panels animate with simulated data. Each panel mounts with a fixed seed and then changes it on a timer:

- **Delivery map** (`DeliveryMap.jsx`):
  - five vehicles drift in latitude and longitude
  - each vehicle's `"N min"` eta is parsed, stepped by at most one minute down, floored at one minute and written back
  - a Live Stats box sums packages and averages efficiency
  - vehicle statuses map to marker colours and labels
- **Driver panel** (`DriverPanel.jsx`):
  - each driver's package count falls by 0, 1 or 2, floored at zero
  - the completed-today count rises by one on a draw above 0.8
  - a Team Performance box counts active drivers, averages ratings and efficiency, and sums packages
- **KPI cards** (`KPIMetrics.jsx`):
  - six metrics random-walk, most of them inside clamps
  - on mount, each card counts up from 0 to its value in 16 ms frames
- **Predictive insights** (`PredictiveInsights.jsx`):
  - four prediction percentages random-walk inside clamps
  - a fixed feed of four insights is shown with priority-coloured borders and badges

Each timer callback is modelled as a pure step function. Every `Math.random()` call becomes an explicit draw, a real number in [0, 1) (`Numerics.Draw`). A step takes a datatype of draws, one field per call, in the order JavaScript evaluates them. All properties therefore hold for every possible draw. Integer-valued fields are `int`. Fractional fields are `real`, so the model's arithmetic is exact.

Files:

- `numerics.dfy`: draws, `Math.round`, sums, means, the `NaN` of an empty mean as `None`, and clamps.
- `int_text.dfy`: JavaScript's `parseInt` without a radix, and the decimal text of an integer, with their round trip.
- `delivery_map.dfy`, `driver_panel.dfy`, `kpi_metrics.dfy`, `predictive_insights.dfy`: one module per component.
- `seed_consistency.dfy`: the one fact tying two seed lists together; the components themselves never refer to each other.

Where the code and a natural reading of the dashboard differ, the model follows the code:

- The count-up animation always starts from 0, never from the value on display.
- The insight feed is shown in seed order and is never sorted by priority.
- The KPI success rate is capped at 99.9 but has no lower clamp. `KpiMetrics.SuccessRateGoesNegative` exhibits a run of draws that takes it below zero.
- A vehicle's eta is stored as text, not as a number. An eta that `parseInt` cannot read becomes the text `"NaN min"` and stays that way (`DeliveryMap.NaNEtaIsAbsorbing`).
- Means over an empty list are `NaN` on the page. They are `None` here, not a "no data" value.

## Model

| member | source | states |
|---|---|---|
| Numerics.Jitter | src/src/components/src/components/DeliveryMap.jsx:74-75 | `(r - 0.5) * scale` lies in [-scale/2, scale/2) for every draw |
| Numerics.UnitStep | src/src/components/src/components/DeliveryMap.jsx:76 | `floor((r - 0.5) * 2)` is -1 for draws below one half and 0 otherwise, so it is never positive |
| Numerics.Below | src/src/components/src/components/KPIMetrics.jsx:50-51 | `floor(r * n)` is a whole number from 0 to n - 1 |
| Numerics.Round | src/src/components/src/components/DeliveryMap.jsx:179 | `Math.round(x)` is the one integer in (x - 1/2, x + 1/2], so halves round towards +infinity as in JavaScript |
| Numerics.RoundedMean | src/src/components/src/components/DeliveryMap.jsx:179 | the rounded mean is `NaN` (None) exactly when the list is empty |
| Numerics.Mean | src/src/components/src/components/src/components/DriverPanel.jsx:225 | the mean is `NaN` (None) exactly when the list is empty; otherwise mean times count equals the sum |
| Numerics.RoundedMeanWithin | src/src/components/src/components/DeliveryMap.jsx:179 | the rounded mean of non-empty values in [lo, hi] is in [lo, hi] |
| Numerics.RoundedMeanBetweenExtremes | src/src/components/src/components/DeliveryMap.jsx:179 | the rounded mean of a non-empty list lies between its minimum and maximum |
| Numerics.SumWithin | src/src/components/src/components/DeliveryMap.jsx:175 | a sum of n values in [lo, hi] lies in [n*lo, n*hi] |
| Numerics.SumMonotone | src/src/components/src/components/src/components/DriverPanel.jsx:231 | the `reduce` sum respects a pointwise order |
| Numerics.SumDropBounded | src/src/components/src/components/src/components/DriverPanel.jsx:231 | if every element drops by at most k, the sum drops by at most k per element |
| Numerics.FoldSumIsSum | src/src/components/src/components/DeliveryMap.jsx:175 | `reduce((sum, x) => sum + x, acc)`, folded left from the first element, equals acc plus `Sum`, so from 0 it is `Sum` |
| Numerics.FoldSumRIsSumR | src/src/components/src/components/src/components/DriverPanel.jsx:225 | the same for the real-valued rating sum |
| Numerics.SumAppend | src/src/components/src/components/src/components/DriverPanel.jsx:231 | adding one more element to the list adds it to the sum, which is the reduce step |
| Numerics.SumRAppend | src/src/components/src/components/src/components/DriverPanel.jsx:225 | the same for real-valued sums |
| Numerics.Clamp | src/src/components/src/components/src/components/src/components/PredictiveInsights.jsx:71 | `Math.min(hi, Math.max(lo, x))` lies in [lo, hi], leaves x alone inside the band, and gives lo below it and hi above it |
| Numerics.ClampOrderIrrelevant | src/src/components/src/components/src/components/src/components/PredictiveInsights.jsx:73 | the `Math.max(lo, Math.min(hi, x))` spelling is the same clamp |
| Numerics.ClampIdempotent | src/src/components/src/components/src/components/src/components/PredictiveInsights.jsx:71-74 | clamping twice is clamping once |
| Numerics.ClampNonExpansive | src/src/components/src/components/src/components/src/components/PredictiveInsights.jsx:71-74 | a clamp keeps order and never moves two points further apart |
| IntText.TrimStart | src/src/components/src/components/DeliveryMap.jsx:76 | parseInt's leading-whitespace skip returns text no longer than its input that does not start with whitespace |
| IntText.TrimStartDropsLeadingWhitespace | src/src/components/src/components/DeliveryMap.jsx:76 | the skip keeps a suffix of the text and every character it drops is JavaScript whitespace, so it removes exactly the leading whitespace |
| IntText.DigitRun | src/src/components/src/components/DeliveryMap.jsx:76 | parseInt reads the longest prefix of digits of the radix |
| IntText.ParseInt | src/src/components/src/components/DeliveryMap.jsx:76 | `parseInt` of empty text is `NaN` (None); text starting with a digit 1-9 parses to at least 1 |
| IntText.ParseMagnitude | src/src/components/src/components/DeliveryMap.jsx:76 | the unsigned part is `NaN` for empty text and at least 1 when it starts with a digit 1-9 |
| IntText.Decimal | src/src/components/src/components/DeliveryMap.jsx:76 | the text of a natural number is a non-empty string of decimal digits |
| IntText.FormatInt | src/src/components/src/components/DeliveryMap.jsx:76 | the text of an integer is non-empty and starts with '-' exactly when the integer is negative |
| IntText.DecimalValue | src/src/components/src/components/DeliveryMap.jsx:76 | reading the decimal digits of n gives back n |
| IntText.DigitRunOfDigitsThen | src/src/components/src/components/DeliveryMap.jsx:76 | the digit run of digits followed by a non-digit ends exactly where the digits end |
| IntText.MagnitudeOfDecimal | src/src/components/src/components/DeliveryMap.jsx:76 | the digits of `n + ' min'` are never read as a hex prefix, and their magnitude is n |
| IntText.ParseIntOfDigitFirst | src/src/components/src/components/DeliveryMap.jsx:76 | text starting with a decimal digit parses to its magnitude whenever the magnitude is readable |
| IntText.ParseIntOfMinusDigitFirst | src/src/components/src/components/DeliveryMap.jsx:76 | the same text after a minus sign parses to the negated magnitude |
| IntText.ParseUnsignedDecimal | src/src/components/src/components/DeliveryMap.jsx:76 | `parseInt(n + ' min')` gives n for every natural n |
| IntText.ParseNegativeDecimal | src/src/components/src/components/DeliveryMap.jsx:76 | `parseInt('-' + m + ' min')` gives -m |
| IntText.ParseFormatRoundTrip | src/src/components/src/components/DeliveryMap.jsx:76 | round trip: `parseInt(n + ' min')` gives back n for every integer n |
| DeliveryMap.NextEta | src/src/components/src/components/DeliveryMap.jsx:76 | an unreadable eta becomes "NaN min"; a readable eta n becomes a readable eta in [max(n - 1, 1), max(n, 1)], so it is at least one minute and never above max(n, 1) |
| DeliveryMap.FormatEtaReadsBack | src/src/components/src/components/DeliveryMap.jsx:76 | the text `minutes + ' min'` that one tick writes is read back by the next tick's parseInt as the same minutes, for every integer |
| DeliveryMap.NaNEtaIsAbsorbing | src/src/components/src/components/DeliveryMap.jsx:76 | "NaN min" does not parse, and it stays "NaN min" on every tick |
| DeliveryMap.MoveVehicle | src/src/components/src/components/DeliveryMap.jsx:72-77 | id, driver, status, packages, route and efficiency are copied; lat and lng each move by at most 0.0005; the eta takes one eta step |
| DeliveryMap.MoveFleet | src/src/components/src/components/DeliveryMap.jsx:72 | the fleet keeps its length and order, and each vehicle moves with its own draws |
| DeliveryMap.MoveFleetEtas | src/src/components/src/components/DeliveryMap.jsx:76 | after a tick, every readable eta is at least 1 and no more than max(old, 1); an all-readable fleet with etas of at least 1 stays that way |
| DeliveryMap.RunFleet | src/src/components/src/components/DeliveryMap.jsx:71-78 | repeated movement ticks keep the fleet's length |
| DeliveryMap.LiveStatsOf | src/src/components/src/components/DeliveryMap.jsx:171-179 | the vehicle count is the fleet length, and the mean efficiency is `NaN` exactly for an empty fleet |
| DeliveryMap.MoveFleetKeepsLiveStats | src/src/components/src/components/DeliveryMap.jsx:171-179 | a movement tick changes neither the vehicle count, the package total nor the mean efficiency |
| DeliveryMap.RunFleetKeepsLiveStats | src/src/components/src/components/DeliveryMap.jsx:171-179 | neither does any number of movement ticks |
| DeliveryMap.AvgEfficiencyBetweenExtremes | src/src/components/src/components/DeliveryMap.jsx:179 | for a non-empty fleet the shown mean efficiency lies between the lowest and highest efficiency |
| DeliveryMap.StatusColor | src/src/components/src/components/DeliveryMap.jsx:83-91 | the marker colour is the default gray-400 exactly for statuses outside the four known ones |
| DeliveryMap.StatusText | src/src/components/src/components/DeliveryMap.jsx:93-101 | the label is "Unknown" exactly for statuses outside delivering, en_route, loading and returning |
| DeliveryMap.LegendAgreesWithMappings | src/src/components/src/components/DeliveryMap.jsx:151-156 | every legend row shows the label and colour the mappings give its status, and the legend lists exactly the statuses with a label other than "Unknown" |
| DeliveryMap.KnownStatusesDistinguishable | src/src/components/src/components/DeliveryMap.jsx:83-101 | distinct known statuses get distinct labels and distinct colours |
| DeliveryMap.SmallEtaText | src/src/components/src/components/DeliveryMap.jsx:76 | the text of a one- or two-digit number of minutes is its digits followed by " min" |
| DeliveryMap.SeedEtaTexts | src/src/components/src/components/DeliveryMap.jsx:18-62 | the seed etas are the texts of 14, 22, 8, 18 and 31 minutes |
| DeliveryMap.SeedEtas | src/src/components/src/components/DeliveryMap.jsx:18-62 | parseInt reads the seed etas as 14, 22, 8, 18 and 31 |
| DeliveryMap.SeedLiveStats | src/src/components/src/components/DeliveryMap.jsx:10-66 | the seed fleet shows 5 vehicles, 43 packages and a mean efficiency of 91 |
| DeliveryMap.SeedEtasStayAtLeastOne | src/src/components/src/components/DeliveryMap.jsx:68-78 | from the seed fleet, after any number of ticks, every eta reads as at least one minute |
| DeliveryMap.RunFleetKeepsEtasAtLeastOne | src/src/components/src/components/DeliveryMap.jsx:76 | readable etas of at least one minute stay so over any number of ticks |
| DeliveryMap.EtaFloorScenario | src/src/components/src/components/DeliveryMap.jsx:76 | a vehicle at "1 min" stays at "1 min" on the lowest draw |
| DriverPanel.PackageStep | src/src/components/src/components/src/components/DriverPanel.jsx:85 | `floor((r - 0.7) * 2)` is -2 below 0.2, -1 below 0.7 and 0 otherwise |
| DriverPanel.UpdateDriver | src/src/components/src/components/src/components/DriverPanel.jsx:83-87 | only packages and completedToday change; packages stay in [0, max(old, 0)] and drop by at most 2; completedToday rises by one exactly when the draw exceeds 0.8 and is unchanged otherwise |
| DriverPanel.UpdateRoster | src/src/components/src/components/src/components/DriverPanel.jsx:83 | the roster keeps its length and order, and each driver updates with its own draws |
| DriverPanel.RunRoster | src/src/components/src/components/src/components/DriverPanel.jsx:82-88 | repeated roster ticks keep the roster's length |
| DriverPanel.RunRosterCounts | src/src/components/src/components/src/components/DriverPanel.jsx:85-86 | over any number of ticks, completedToday never falls and rises by at most one per tick; after at least one tick no package count is negative |
| DriverPanel.ActiveDrivers | src/src/components/src/components/src/components/DriverPanel.jsx:219 | the filter keeps exactly the drivers whose status is "active" |
| DriverPanel.ActiveCountIsMultiplicity | src/src/components/src/components/src/components/DriverPanel.jsx:219 | the active count is the number of times "active" occurs among the statuses |
| DriverPanel.TeamStatsOf | src/src/components/src/components/src/components/DriverPanel.jsx:219-237 | the active count is at most the roster size, and both means are `NaN` exactly for an empty roster |
| DriverPanel.UpdateRosterKeepsTeamStats | src/src/components/src/components/src/components/DriverPanel.jsx:83-87 | a tick keeps the active count, the mean rating and the mean efficiency; the package total afterwards is non-negative and at most 2 per driver lower |
| DriverPanel.UpdateRosterPackagesNonIncreasing | src/src/components/src/components/src/components/DriverPanel.jsx:231 | from non-negative counts, a tick never raises the package total |
| DriverPanel.StatusColor | src/src/components/src/components/src/components/DriverPanel.jsx:93-100 | the badge is gray exactly for statuses other than active and break |
| DriverPanel.StatusText | src/src/components/src/components/src/components/DriverPanel.jsx:102-109 | the label is "Unknown" exactly for statuses other than active, break and offline |
| DriverPanel.OfflineLooksUnknown | src/src/components/src/components/src/components/DriverPanel.jsx:97-98 | an unrecognised status gets the offline badge colour, but a label different from every known one |
| DriverPanel.SeedTeamStats | src/src/components/src/components/src/components/DriverPanel.jsx:10-76 | the seed roster shows 3 active drivers, a mean rating of 4.78, 43 packages and a mean efficiency of 91 |
| DriverPanel.SeedActiveCount | src/src/components/src/components/src/components/DriverPanel.jsx:219 | three seed drivers are active |
| DriverPanel.SeedMeanRating | src/src/components/src/components/src/components/DriverPanel.jsx:225 | the seed ratings average 23.9 / 5 = 4.78 |
| DriverPanel.SeedPackagesAndEfficiency | src/src/components/src/components/src/components/DriverPanel.jsx:231-237 | the seed package total is 43 and the seed mean efficiency rounds to 91 |
| DriverPanel.TwoDriverMeanRating | src/src/components/src/components/src/components/DriverPanel.jsx:225 | ratings 4.9 and 4.7 average 4.8 |
| SeedConsistency.SeedReferencesResolve | src/src/components/src/components/src/components/DriverPanel.jsx:10-76 | each seed driver's vehicle is the seed vehicle that lists that driver by name |
| KpiMetrics.MetricTick | src/src/components/src/components/KPIMetrics.jsx:47-55 | after a tick all clamped metrics are in range. Success rate is at most 99.9 and moves by at most 0.05 before the cap. Savings rise by 0 to 99 and deliveries by 0 to 2. Satisfaction and delivery time move by at most half their scale from in-range values. Active drivers stay in [min(old - 1, 180), max(old, 140)] |
| KpiMetrics.NeutralTick | src/src/components/src/components/KPIMetrics.jsx:49-54 | neutral draws for the walking metrics and the lowest draws for the two counters leave an in-range record unchanged |
| KpiMetrics.RunMetricsInRange | src/src/components/src/components/KPIMetrics.jsx:47-55 | the ranges hold over any number of ticks |
| KpiMetrics.RunMetrics | src/src/components/src/components/KPIMetrics.jsx:46-56 | after at least one tick the record is in range whatever it started from; savings and deliveries never fall |
| KpiMetrics.RunMetricsAppend | src/src/components/src/components/KPIMetrics.jsx:46-56 | running two batches of ticks one after the other is the same as running them as one batch |
| KpiMetrics.InitialMetricsInRange | src/src/components/src/components/KPIMetrics.jsx:6-13 | the initial metrics already lie in their ranges |
| KpiMetrics.RunMetricsMonotone | src/src/components/src/components/KPIMetrics.jsx:50-51 | savings and deliveries never fall and rise by at most 99 and 2 per tick |
| KpiMetrics.SuccessRateHasNoFloor | src/src/components/src/components/KPIMetrics.jsx:49 | on the lowest draws the success rate falls by exactly 0.05 per tick, without bound |
| KpiMetrics.SuccessRateGoesNegative | src/src/components/src/components/KPIMetrics.jsx:49 | from 94.2, 1885 such ticks take the success rate below zero |
| KpiMetrics.FrameCount | src/src/components/src/components/KPIMetrics.jsx:26-28 | the frame count is the least whole number of 16 ms frames that covers the duration |
| KpiMetrics.Increment | src/src/components/src/components/KPIMetrics.jsx:28 | the increment times duration/16 is exactly the target, and it has the same sign as the target |
| KpiMetrics.DefaultFrameCount | src/src/components/src/components/KPIMetrics.jsx:26 | at the default 2000 ms the count is 125 |
| KpiMetrics.ReachesTarget | src/src/components/src/components/KPIMetrics.jsx:28-33 | for a positive target, k increments reach it exactly when k is at least the frame count |
| KpiMetrics.FirstStepReachesNonPositive | src/src/components/src/components/KPIMetrics.jsx:28-33 | with a non-positive target and at least one frame's duration, the first step reaches the target |
| KpiMetrics.NegativeTargetNeverSettles | src/src/components/src/components/KPIMetrics.jsx:28-36 | with a negative target and a duration below one frame, every frame stays below the target, so the timer is never cleared |
| KpiMetrics.AnimationFramesShape | src/src/components/src/components/KPIMetrics.jsx:26-38 | the last value is the target, no value exceeds it, and values climb strictly for a positive target, over FrameCount frames (125 at 2000 ms); a non-positive target is emitted alone. Like `Animate`, it requires a non-negative target or a duration of at least 16 ms, because otherwise the timer never stops |
| KpiMetrics.AnimationFrames | src/src/components/src/components/KPIMetrics.jsx:26-38 | the reference sequence of displayed values ends on the target and, for a positive target, has FrameCount frames. It is defined only where the timer stops: for a non-negative target or a duration of at least 16 ms |
| KpiMetrics.FrameBelowTarget | src/src/components/src/components/KPIMetrics.jsx:28-33 | for a positive target, every frame before the last is i + 1 increments and still below the target |
| KpiMetrics.FramesIncrease | src/src/components/src/components/KPIMetrics.jsx:28-34 | for a positive target, a later frame is strictly higher than an earlier one |
| KpiMetrics.Animate | src/src/components/src/components/KPIMetrics.jsx:26-39 | the frame loop emits exactly the closed-form sequence, which ends on the target, never exceeds it, and climbs strictly for a positive target |
| KpiMetrics.MountAnimations | src/src/components/src/components/KPIMetrics.jsx:41-43 | each of the six animations, in `Object.entries` order, is exactly the count-up `AnimationFrames` of its metric at 2000 ms: it ends on the value, never overshoots, and a positive value takes 125 frames |
| PredictiveInsights.PredictionTick | src/src/components/src/components/src/components/src/components/PredictiveInsights.jsx:70-75 | after a tick the four predictions are in their bands; from in-range values they move by at most 0.1, 0.15, 0.05 and 0.05 |
| PredictiveInsights.PredictionTickIsClampedStep | src/src/components/src/components/src/components/src/components/PredictiveInsights.jsx:71-74 | each field is its stepped value clamped to its band, whichever way round the clamp is written |
| PredictiveInsights.NeutralTickKeepsInRange | src/src/components/src/components/src/components/src/components/PredictiveInsights.jsx:71-74 | the neutral draw leaves in-range predictions unchanged |
| PredictiveInsights.NeutralTickIdempotent | src/src/components/src/components/src/components/src/components/PredictiveInsights.jsx:71-74 | a neutral tick applied twice equals one neutral tick |
| PredictiveInsights.PredictionTickNonExpansive | src/src/components/src/components/src/components/src/components/PredictiveInsights.jsx:71-74 | two panels fed the same draws keep their order and never drift further apart |
| PredictiveInsights.InitialPredictionsInRange | src/src/components/src/components/src/components/src/components/PredictiveInsights.jsx:7-12 | the initial predictions already lie in their bands |
| PredictiveInsights.RunPredictionsInRange | src/src/components/src/components/src/components/src/components/PredictiveInsights.jsx:69-76 | the bands hold over any number of ticks |
| PredictiveInsights.RunPredictions | src/src/components/src/components/src/components/src/components/PredictiveInsights.jsx:69-76 | after at least one update every prediction is in its band, whatever the starting values |
| PredictiveInsights.RunPredictionsAppend | src/src/components/src/components/src/components/src/components/PredictiveInsights.jsx:69-76 | running two batches of updates one after the other is the same as running them as one batch |
| PredictiveInsights.RunPredictionsDrift | src/src/components/src/components/src/components/src/components/PredictiveInsights.jsx:71-74 | over n ticks each prediction moves by at most n times its per-tick bound |
| PredictiveInsights.SeedFeedWellFormed | src/src/components/src/components/src/components/src/components/PredictiveInsights.jsx:15-64 | the feed has four insights with ids 1 to 4, distinct, with confidences in 0..100 and priorities high, medium or low |
| PredictiveInsights.SeedFeedNotPriorityOrdered | src/src/components/src/components/src/components/src/components/PredictiveInsights.jsx:159 | the feed, shown in seed order, has a low insight before a high one |
| PredictiveInsights.PriorityBorder | src/src/components/src/components/src/components/src/components/PredictiveInsights.jsx:81-88 | the border is gray exactly for priorities other than high, medium and low |
| PredictiveInsights.PriorityBadge | src/src/components/src/components/src/components/src/components/PredictiveInsights.jsx:178-182 | the badge is green exactly for priorities other than high and medium |
| PredictiveInsights.BorderAndBadgeAgree | src/src/components/src/components/src/components/src/components/PredictiveInsights.jsx:81-182 | border and badge have the same colour for high, medium and low; any other priority gets a gray border but a green badge |
| PredictiveInsights.SeedFeedColours | src/src/components/src/components/src/components/src/components/PredictiveInsights.jsx:15-64 | no seed insight gets the gray fallback border |

## Left out

- `Dashboard.jsx`: a one-second clock and page layout, with no logic to model.
- JSX markup, icons, and CSS classes other than the status and priority mappings. Also the selection and modal state (`selectedVehicle`, `selectedDriver`), which is plain UI.
- The empty first render before each mount effect installs its seed list. The model starts from the seed lists.
- Timer scheduling: the 5 s, 10 s, 3 s and 16 ms intervals and how their callbacks interleave. In particular:
  - the effect in `KPIMetrics.jsx` at lines 61-66 writes committed metrics straight over the values being animated, and races the count-up
  - the count-up timers are never cleared on unmount
  
  These are questions of timing and concurrency; the model is sequential.
- The probability distributions of the draws. The properties are stated for every draw, never "with probability p".
- Display formatting: `toFixed`, `toLocaleString`, and the `%`, `$` and `M` suffixes.
- Marker screen positions, which come from `Date.now()` with `sin`/`cos` in `DeliveryMap.jsx` at lines 134-135.
- Decorative constants: "vs yesterday" deltas, "Updated 2 min ago" and similar.
- IEEE-754 arithmetic: every real is exact in the model. Two consequences:
  - clamps, sums and means carry no rounding error, so a value such as `prev + (r - 0.5) * 0.1` has no float drift
  - `Math.round` sees the exact mean, where JavaScript may see one rounded just across a half
- KpiMetrics.AnimationFrames: states the frame count over exact reals. In floating point, 125 additions of `target / 125` can fall just short of the target, which adds one more frame. It also requires a non-negative target or a duration of at least 16 ms. With a negative target and a shorter duration, the timer never stops and the page shows an endless falling sequence (`KpiMetrics.NegativeTargetNeverSettles`), so no finite closed form exists.
- KpiMetrics.AnimationFramesShape: its 125 frames at 2000 ms hold over exact reals only, for the same floating-point reason. It has the same precondition as `AnimationFrames`, which leaves out the never-stopping timer.
- KpiMetrics.Animate: requires a non-negative target or a duration of at least 16 ms. Outside that, with a negative target and a shorter duration, the component's timer never stops (`KpiMetrics.NegativeTargetNeverSettles`). Only the default 2000 ms is ever used.
- KpiMetrics.MountAnimations: the six animations run concurrently in the page; here they run one after another. Its 125 frames per positive value also hold over exact reals only, for the same floating-point reason.
- IntText.FormatInt: writes every digit. JavaScript switches to exponent notation from 1e21 on, which no eta reaches.
- IntText.ParseInt: reads unboundedly many digits exactly. JavaScript loses precision beyond 2^53.

=== FILE: delivery_map.dfy ===
/** The live delivery map: a fleet of vehicles that drift and count their eta
    down every movement tick, the "Live Stats" panel computed from the fleet,
    and the status colour and label used by the markers and the legend. */
module DeliveryMap {
  import opened Numerics
  import opened IntText

  /** One vehicle as the map keeps it. The eta is text such as "14 min". */
  datatype Vehicle = Vehicle(
    id: string,
    driver: string,
    lat: real,
    lng: real,
    status: string,
    packages: int,
    eta: string,
    route: string,
    efficiency: int)

  /** The three Math.random() results one vehicle consumes per movement tick,
      in the order the object literal evaluates them. */
  datatype VehicleDraws = VehicleDraws(lat: Draw, lng: Draw, eta: Draw)

  /** The fleet the map starts with. */
  const SeedFleet: seq<Vehicle> := [
    Vehicle("V001", "Sarah Chen", 47.6062, -122.3321, "delivering", 12, "14 min", "Downtown Seattle", 94),
    Vehicle("V002", "Mike Rodriguez", 47.6205, -122.3493, "en_route", 8, "22 min", "Capitol Hill", 87),
    Vehicle("V003", "Emily Johnson", 47.5952, -122.3316, "loading", 15, "8 min", "SoDo District", 91),
    Vehicle("V004", "David Kim", 47.6097, -122.3331, "delivering", 6, "18 min", "Pioneer Square", 96),
    Vehicle("V005", "Lisa Wang", 47.6145, -122.3418, "returning", 2, "31 min", "Belltown", 89)
  ]

  // ---------------------------------------------------------------------------
  // Movement tick
  // ---------------------------------------------------------------------------

  /** The text `minutes + ' min'`. */
  function FormatEta(minutes: int): string
  {
    FormatInt(minutes) + " min"
  }

  /** An eta written by a tick is read back by the next one as the same minutes. */
  lemma FormatEtaReadsBack(minutes: int)
    ensures ParseInt(FormatEta(minutes)) == Some(minutes)
  {
    ParseFormatRoundTrip(minutes);
  }

  /** The eta after one tick: `Math.max(1, parseInt(eta) + step) + ' min'`.
      An eta parseInt cannot read is NaN, and NaN survives the arithmetic. */
  function NextEta(eta: string, r: Draw): (e: string)
    ensures ParseInt(eta).None? ==> e == "NaN min"
    ensures ParseInt(eta).Some? ==>
      var n := ParseInt(eta).value;
      && ParseInt(e).Some?
      && 1 <= ParseInt(e).value <= Max(n, 1)
      && n - 1 <= ParseInt(e).value
  {
    match ParseInt(eta)
    case None => "NaN min"
    case Some(n) =>
      var minutes := Max(1, n + UnitStep(r));
      FormatEtaReadsBack(minutes);
      FormatEta(minutes)
  }

  /** Once an eta has become NaN it stays NaN. */
  lemma NaNEtaIsAbsorbing(r: Draw)
    ensures ParseInt("NaN min") == None
    ensures NextEta("NaN min", r) == "NaN min"
  {
    var s := "NaN min";
    assert !IsJsWhitespace(s[0]) && s[0] != '-' && s[0] != '+';
    assert TrimStart(s) == s;
    assert DigitRun(s, 10) == 0;
  }

  /** One vehicle after a movement tick. */
  function MoveVehicle(v: Vehicle, d: VehicleDraws): (w: Vehicle)
    ensures w.id == v.id && w.driver == v.driver && w.status == v.status
    ensures w.packages == v.packages && w.route == v.route && w.efficiency == v.efficiency
    ensures -0.0005 <= w.lat - v.lat <= 0.0005
    ensures -0.0005 <= w.lng - v.lng <= 0.0005
    ensures w.eta == NextEta(v.eta, d.eta)
  {
    v.(lat := v.lat + Jitter(d.lat, 0.001), lng := v.lng + Jitter(d.lng, 0.001), eta := NextEta(v.eta, d.eta))
  }

  /** `prev.map(vehicle => ...)`: every vehicle moved with its own draws, in place. */
  function MoveFleet(vs: seq<Vehicle>, ds: seq<VehicleDraws>): (ws: seq<Vehicle>)
    requires |ds| == |vs|
    ensures |ws| == |vs|
    ensures forall i :: 0 <= i < |vs| ==> ws[i] == MoveVehicle(vs[i], ds[i])
  {
    seq(|vs|, i requires 0 <= i < |vs| => MoveVehicle(vs[i], ds[i]))
  }

  /** Every eta of the fleet reads as a whole number of minutes no smaller than one. */
  ghost predicate EtasAtLeastOne(vs: seq<Vehicle>)
  {
    forall i :: 0 <= i < |vs| ==> ParseInt(vs[i].eta).Some? && ParseInt(vs[i].eta).value >= 1
  }

  /** After a tick every readable eta is at least one minute, and none has grown. */
  lemma MoveFleetEtas(vs: seq<Vehicle>, ds: seq<VehicleDraws>)
    requires |ds| == |vs|
    ensures forall i :: 0 <= i < |vs| && ParseInt(vs[i].eta).Some? ==>
      var ws := MoveFleet(vs, ds);
      && ParseInt(ws[i].eta).Some?
      && 1 <= ParseInt(ws[i].eta).value <= Max(ParseInt(vs[i].eta).value, 1)
    ensures EtasAtLeastOne(vs) ==> EtasAtLeastOne(MoveFleet(vs, ds))
  {
  }

  /** A sequence of movement ticks, each with one batch of draws per vehicle. */
  function RunFleet(vs: seq<Vehicle>, ticks: seq<seq<VehicleDraws>>): (ws: seq<Vehicle>)
    requires forall k :: 0 <= k < |ticks| ==> |ticks[k]| == |vs|
    ensures |ws| == |vs|
    decreases |ticks|
  {
    if |ticks| == 0 then vs else RunFleet(MoveFleet(vs, ticks[0]), ticks[1..])
  }

  // ---------------------------------------------------------------------------
  // Live Stats
  // ---------------------------------------------------------------------------

  function Packages(vs: seq<Vehicle>): (ps: seq<int>)
    ensures |ps| == |vs| && forall i :: 0 <= i < |vs| ==> ps[i] == vs[i].packages
  {
    seq(|vs|, i requires 0 <= i < |vs| => vs[i].packages)
  }

  function Efficiencies(vs: seq<Vehicle>): (es: seq<int>)
    ensures |es| == |vs| && forall i :: 0 <= i < |vs| ==> es[i] == vs[i].efficiency
  {
    seq(|vs|, i requires 0 <= i < |vs| => vs[i].efficiency)
  }

  /** The "Live Stats" panel: vehicle count, package total and rounded mean efficiency
      (None where the page would show NaN). */
  datatype LiveStats = LiveStats(activeVehicles: nat, totalPackages: int, avgEfficiency: Option<int>)

  function LiveStatsOf(vs: seq<Vehicle>): (s: LiveStats)
    ensures s.activeVehicles == |vs|
    ensures s.avgEfficiency.None? <==> |vs| == 0
  {
    LiveStats(|vs|, Sum(Packages(vs)), RoundedMean(Efficiencies(vs)))
  }

  /** A movement tick changes none of the Live Stats. */
  lemma MoveFleetKeepsLiveStats(vs: seq<Vehicle>, ds: seq<VehicleDraws>)
    requires |ds| == |vs|
    ensures LiveStatsOf(MoveFleet(vs, ds)) == LiveStatsOf(vs)
  {
    var ws := MoveFleet(vs, ds);
    assert Packages(ws) == Packages(vs);
    assert Efficiencies(ws) == Efficiencies(vs);
  }

  /** Nor does any number of them. */
  lemma {:induction false} RunFleetKeepsLiveStats(vs: seq<Vehicle>, ticks: seq<seq<VehicleDraws>>)
    requires forall k :: 0 <= k < |ticks| ==> |ticks[k]| == |vs|
    ensures LiveStatsOf(RunFleet(vs, ticks)) == LiveStatsOf(vs)
    decreases |ticks|
  {
    if |ticks| > 0 {
      MoveFleetKeepsLiveStats(vs, ticks[0]);
      RunFleetKeepsLiveStats(MoveFleet(vs, ticks[0]), ticks[1..]);
    }
  }

  /** The mean efficiency shown for a non-empty fleet lies between its worst and best vehicle. */
  lemma AvgEfficiencyBetweenExtremes(vs: seq<Vehicle>)
    requires |vs| > 0
    ensures LiveStatsOf(vs).avgEfficiency.Some?
    ensures SeqMin(Efficiencies(vs)) <= LiveStatsOf(vs).avgEfficiency.value <= SeqMax(Efficiencies(vs))
  {
    RoundedMeanBetweenExtremes(Efficiencies(vs));
  }

  // ---------------------------------------------------------------------------
  // Status colour and label
  // ---------------------------------------------------------------------------

  const KnownStatuses: set<string> := {"delivering", "en_route", "loading", "returning"}

  function StatusColor(status: string): (c: string)
    ensures status !in KnownStatuses <==> c == "bg-gray-400"
  {
    match status
    case "delivering" => "bg-green-500"
    case "en_route" => "bg-blue-500"
    case "loading" => "bg-yellow-500"
    case "returning" => "bg-gray-500"
    case _ => "bg-gray-400"
  }

  function StatusText(status: string): (t: string)
    ensures status !in KnownStatuses <==> t == "Unknown"
  {
    match status
    case "delivering" => "Delivering"
    case "en_route" => "En Route"
    case "loading" => "Loading"
    case "returning" => "Returning"
    case _ => "Unknown"
  }

  /** One row of the map legend. */
  datatype LegendEntry = LegendEntry(status: string, text: string, color: string)

  const Legend: seq<LegendEntry> := [
    LegendEntry("delivering", "Delivering", "bg-green-500"),
    LegendEntry("en_route", "En Route", "bg-blue-500"),
    LegendEntry("loading", "Loading", "bg-yellow-500"),
    LegendEntry("returning", "Returning", "bg-gray-500")
  ]

  /** The legend, written out separately in the page, agrees with the marker colour and
      the detail label, and lists exactly the statuses that get a label other than "Unknown". */
  lemma LegendAgreesWithMappings(status: string)
    ensures forall i :: 0 <= i < |Legend| ==>
      StatusText(Legend[i].status) == Legend[i].text && StatusColor(Legend[i].status) == Legend[i].color
    ensures StatusText(status) != "Unknown" <==> exists i :: 0 <= i < |Legend| && Legend[i].status == status
  {
    if status in KnownStatuses {
      var i := if status == "delivering" then 0 else if status == "en_route" then 1
               else if status == "loading" then 2 else 3;
      assert Legend[i].status == status;
    }
  }

  /** Different known statuses get different labels and different colours. */
  lemma KnownStatusesDistinguishable(s: string, t: string)
    requires s in KnownStatuses && t in KnownStatuses && s != t
    ensures StatusText(s) != StatusText(t)
    ensures StatusColor(s) != StatusColor(t)
  {
  }

  // ---------------------------------------------------------------------------
  // Facts about the seed fleet
  // ---------------------------------------------------------------------------

  /** The text of a one- or two-digit number of minutes. */
  lemma SmallEtaText(n: int)
    requires 0 <= n < 100
    ensures n < 10 ==> FormatEta(n) == ["0123456789"[n]] + " min"
    ensures 10 <= n ==> FormatEta(n) == ["0123456789"[n / 10], "0123456789"[n % 10]] + " min"
  {
    if n >= 10 {
      assert Decimal(n) == Decimal(n / 10) + ["0123456789"[n % 10]];
    }
  }

  /** The minutes the seed etas stand for. */
  const SeedEtaMinutes: seq<int> := [14, 22, 8, 18, 31]

  /** The seed etas are the texts of 14, 22, 8, 18 and 31 minutes ... */
  lemma SeedEtaTexts()
    ensures SeedFleet[0].eta == FormatEta(14) && SeedFleet[1].eta == FormatEta(22)
    ensures SeedFleet[2].eta == FormatEta(8) && SeedFleet[3].eta == FormatEta(18)
    ensures SeedFleet[4].eta == FormatEta(31)
  {
    SmallEtaText(14);
    SmallEtaText(22);
    SmallEtaText(8);
    SmallEtaText(18);
    SmallEtaText(31);
  }

  /** ... so parseInt reads them back as those minutes. */
  lemma SeedEtas(i: nat)
    requires i < |SeedFleet|
    ensures ParseInt(SeedFleet[i].eta) == Some(SeedEtaMinutes[i])
  {
    SeedEtaTexts();
    if i == 0 {
      FormatEtaReadsBack(14);
    } else if i == 1 {
      FormatEtaReadsBack(22);
    } else if i == 2 {
      FormatEtaReadsBack(8);
    } else if i == 3 {
      FormatEtaReadsBack(18);
    } else {
      FormatEtaReadsBack(31);
    }
  }

  /** The seed fleet shows 5 vehicles, 43 packages and a mean efficiency of round(457 / 5) = 91. */
  lemma SeedLiveStats()
    ensures LiveStatsOf(SeedFleet) == LiveStats(5, 43, Some(91))
  {
    assert Packages(SeedFleet) == [12, 8, 15, 6, 2];
    assert Efficiencies(SeedFleet) == [94, 87, 91, 96, 89];
    assert Sum([94, 87, 91, 96, 89]) == 457;
    assert Sum([12, 8, 15, 6, 2]) == 43;
  }

  /** From the seed fleet, after any number of movement ticks, every eta reads as at least one minute. */
  lemma SeedEtasStayAtLeastOne(ticks: seq<seq<VehicleDraws>>)
    requires forall k :: 0 <= k < |ticks| ==> |ticks[k]| == |SeedFleet|
    ensures EtasAtLeastOne(RunFleet(SeedFleet, ticks))
  {
    assert EtasAtLeastOne(SeedFleet) by {
      forall i | 0 <= i < |SeedFleet| ensures ParseInt(SeedFleet[i].eta).Some? && ParseInt(SeedFleet[i].eta).value >= 1 {
        SeedEtas(i);
      }
    }
    RunFleetKeepsEtasAtLeastOne(SeedFleet, ticks);
  }

  lemma {:induction false} RunFleetKeepsEtasAtLeastOne(vs: seq<Vehicle>, ticks: seq<seq<VehicleDraws>>)
    requires forall k :: 0 <= k < |ticks| ==> |ticks[k]| == |vs|
    requires EtasAtLeastOne(vs)
    ensures EtasAtLeastOne(RunFleet(vs, ticks))
    decreases |ticks|
  {
    if |ticks| > 0 {
      MoveFleetEtas(vs, ticks[0]);
      RunFleetKeepsEtasAtLeastOne(MoveFleet(vs, ticks[0]), ticks[1..]);
    }
  }

  /** A vehicle at one minute stays at one minute on the lowest draw, with its packages untouched. */
  lemma EtaFloorScenario(v: Vehicle)
    requires v.eta == "1 min"
    ensures MoveVehicle(v, VehicleDraws(0.0, 0.0, 0.0)).eta == "1 min"
    ensures MoveVehicle(v, VehicleDraws(0.0, 0.0, 0.0)).packages == v.packages
  {
    assert v.eta == FormatEta(1);
    FormatEtaReadsBack(1);
    assert Max(1, 1 + UnitStep(0.0)) == 1;
  }
}

=== FILE: driver_panel.dfy ===
/** The driver panel: a roster whose package counts and completed deliveries
    change every roster tick, the "Team Performance" figures computed from it,
    and the status badge colour and label. */
module DriverPanel {
  import opened Numerics

  /** One driver as the panel keeps it. */
  datatype Driver = Driver(
    id: string,
    name: string,
    status: string,
    vehicle: string,
    packages: int,
    completedToday: int,
    rating: real,
    location: string,
    phone: string,
    efficiency: int,
    onTimeRate: int)

  /** The two Math.random() results one driver consumes per roster tick, in evaluation order. */
  datatype DriverDraws = DriverDraws(packages: Draw, completion: Draw)

  /** The roster the panel starts with. */
  const SeedRoster: seq<Driver> := [
    Driver("D001", "Sarah Chen", "active", "V001", 12, 28, 4.9, "Downtown Seattle", "+1 (555) 123-4567", 94, 98),
    Driver("D002", "Mike Rodriguez", "active", "V002", 8, 22, 4.7, "Capitol Hill", "+1 (555) 234-5678", 87, 95),
    Driver("D003", "Emily Johnson", "break", "V003", 15, 31, 4.8, "SoDo District", "+1 (555) 345-6789", 91, 97),
    Driver("D004", "David Kim", "active", "V004", 6, 19, 4.9, "Pioneer Square", "+1 (555) 456-7890", 96, 99),
    Driver("D005", "Lisa Wang", "offline", "V005", 2, 25, 4.6, "Belltown", "+1 (555) 567-8901", 89, 93)
  ]

  // ---------------------------------------------------------------------------
  // Roster tick
  // ---------------------------------------------------------------------------

  /** `Math.floor((Math.random() - 0.7) * 2)`: -2 below 0.2, -1 below 0.7, else 0. */
  function PackageStep(r: Draw): (d: int)
    ensures d == (if r < 0.2 then -2 else if r < 0.7 then -1 else 0)
  {
    ((r - 0.7) * 2.0).Floor
  }

  /** One driver after a roster tick: packages move by the step, floored at zero, and one more
      delivery is completed exactly when the second draw exceeds 0.8. Nothing else changes. */
  function UpdateDriver(d: Driver, x: DriverDraws): (e: Driver)
    ensures e == d.(packages := e.packages, completedToday := e.completedToday)
    ensures 0 <= e.packages <= Max(d.packages, 0)
    ensures d.packages - 2 <= e.packages
    ensures e.completedToday == d.completedToday + 1 <==> x.completion > 0.8
    ensures e.completedToday == d.completedToday <==> x.completion <= 0.8
  {
    d.(packages := Max(0, d.packages + PackageStep(x.packages)),
       completedToday := d.completedToday + (if x.completion > 0.8 then 1 else 0))
  }

  /** `prev.map(driver => ...)`: every driver updated with its own draws, in place. */
  function UpdateRoster(ds: seq<Driver>, xs: seq<DriverDraws>): (es: seq<Driver>)
    requires |xs| == |ds|
    ensures |es| == |ds|
    ensures forall i :: 0 <= i < |ds| ==> es[i] == UpdateDriver(ds[i], xs[i])
  {
    seq(|ds|, i requires 0 <= i < |ds| => UpdateDriver(ds[i], xs[i]))
  }

  /** A sequence of roster ticks, each with one batch of draws per driver. */
  function RunRoster(ds: seq<Driver>, ticks: seq<seq<DriverDraws>>): (es: seq<Driver>)
    requires forall k :: 0 <= k < |ticks| ==> |ticks[k]| == |ds|
    ensures |es| == |ds|
    decreases |ticks|
  {
    if |ticks| == 0 then ds else RunRoster(UpdateRoster(ds, ticks[0]), ticks[1..])
  }

  /** Over any number of ticks no driver's completed count goes down, and none grows by more
      than one per tick; after at least one tick no package count is negative. */
  lemma {:induction false} RunRosterCounts(ds: seq<Driver>, ticks: seq<seq<DriverDraws>>, i: nat)
    requires forall k :: 0 <= k < |ticks| ==> |ticks[k]| == |ds|
    requires i < |ds|
    ensures ds[i].completedToday <= RunRoster(ds, ticks)[i].completedToday <= ds[i].completedToday + |ticks|
    ensures |ticks| > 0 ==> RunRoster(ds, ticks)[i].packages >= 0
    decreases |ticks|
  {
    if |ticks| > 0 {
      var next := UpdateRoster(ds, ticks[0]);
      RunRosterCounts(next, ticks[1..], i);
      if |ticks| > 1 {
        assert RunRoster(ds, ticks)[i].packages >= 0;
      } else {
        assert RunRoster(ds, ticks) == next;
      }
    }
  }

  // ---------------------------------------------------------------------------
  // Team Performance
  // ---------------------------------------------------------------------------

  /** `drivers.filter(d => d.status === 'active')`. */
  function ActiveDrivers(ds: seq<Driver>): (active: seq<Driver>)
    ensures |active| <= |ds|
    ensures forall j :: 0 <= j < |active| ==> active[j].status == "active" && active[j] in ds
    ensures forall i :: 0 <= i < |ds| && ds[i].status == "active" ==> ds[i] in active
  {
    if |ds| == 0 then []
    else if ds[0].status == "active" then [ds[0]] + ActiveDrivers(ds[1..])
    else ActiveDrivers(ds[1..])
  }

  function Statuses(ds: seq<Driver>): (ss: seq<string>)
    ensures |ss| == |ds| && forall i :: 0 <= i < |ds| ==> ss[i] == ds[i].status
  {
    seq(|ds|, i requires 0 <= i < |ds| => ds[i].status)
  }

  /** The active count is the number of times "active" occurs among the statuses. */
  lemma {:induction false} ActiveCountIsMultiplicity(ds: seq<Driver>)
    ensures |ActiveDrivers(ds)| == multiset(Statuses(ds))["active"]
  {
    if |ds| > 0 {
      ActiveCountIsMultiplicity(ds[1..]);
      assert Statuses(ds) == [ds[0].status] + Statuses(ds[1..]);
    }
  }

  function Packages(ds: seq<Driver>): (ps: seq<int>)
    ensures |ps| == |ds| && forall i :: 0 <= i < |ds| ==> ps[i] == ds[i].packages
  {
    seq(|ds|, i requires 0 <= i < |ds| => ds[i].packages)
  }

  function Ratings(ds: seq<Driver>): (rs: seq<real>)
    ensures |rs| == |ds| && forall i :: 0 <= i < |ds| ==> rs[i] == ds[i].rating
  {
    seq(|ds|, i requires 0 <= i < |ds| => ds[i].rating)
  }

  function Efficiencies(ds: seq<Driver>): (es: seq<int>)
    ensures |es| == |ds| && forall i :: 0 <= i < |ds| ==> es[i] == ds[i].efficiency
  {
    seq(|ds|, i requires 0 <= i < |ds| => ds[i].efficiency)
  }

  /** The "Team Performance" box: active count, mean rating, package total and rounded mean
      efficiency (None where the page would show NaN). */
  datatype TeamStats = TeamStats(
    activeDrivers: nat,
    avgRating: Option<real>,
    totalPackages: int,
    avgEfficiency: Option<int>)

  function TeamStatsOf(ds: seq<Driver>): (t: TeamStats)
    ensures t.activeDrivers <= |ds|
    ensures t.avgRating.None? <==> |ds| == 0
    ensures t.avgEfficiency.None? <==> |ds| == 0
  {
    TeamStats(|ActiveDrivers(ds)|, Mean(Ratings(ds)), Sum(Packages(ds)), RoundedMean(Efficiencies(ds)))
  }

  /** A roster tick keeps the active count and both means; the package total falls by at
      most two per driver and is never negative afterwards. */
  lemma UpdateRosterKeepsTeamStats(ds: seq<Driver>, xs: seq<DriverDraws>)
    requires |xs| == |ds|
    ensures TeamStatsOf(UpdateRoster(ds, xs)).activeDrivers == TeamStatsOf(ds).activeDrivers
    ensures TeamStatsOf(UpdateRoster(ds, xs)).avgRating == TeamStatsOf(ds).avgRating
    ensures TeamStatsOf(UpdateRoster(ds, xs)).avgEfficiency == TeamStatsOf(ds).avgEfficiency
    ensures TeamStatsOf(UpdateRoster(ds, xs)).totalPackages >= 0
    ensures TeamStatsOf(UpdateRoster(ds, xs)).totalPackages >= TeamStatsOf(ds).totalPackages - 2 * |ds|
  {
    var es := UpdateRoster(ds, xs);
    assert Statuses(es) == Statuses(ds);
    ActiveCountIsMultiplicity(es);
    ActiveCountIsMultiplicity(ds);
    assert Ratings(es) == Ratings(ds);
    assert Efficiencies(es) == Efficiencies(ds);
    SumMonotone(seq(|ds|, i => 0), Packages(es));
    assert Sum(seq(|ds|, i => 0)) == 0 by { ZeroSum(|ds|); }
    SumDropBounded(Packages(es), Packages(ds), 2);
  }

  /** When no driver starts with a negative count, a tick never raises the package total. */
  lemma UpdateRosterPackagesNonIncreasing(ds: seq<Driver>, xs: seq<DriverDraws>)
    requires |xs| == |ds|
    requires forall i :: 0 <= i < |ds| ==> ds[i].packages >= 0
    ensures TeamStatsOf(UpdateRoster(ds, xs)).totalPackages <= TeamStatsOf(ds).totalPackages
  {
    SumMonotone(Packages(UpdateRoster(ds, xs)), Packages(ds));
  }

  lemma {:induction false} ZeroSum(n: nat)
    ensures Sum(seq(n, i => 0)) == 0
  {
    if n > 0 {
      assert seq(n, i => 0)[1..] == seq(n - 1, i => 0);
      ZeroSum(n - 1);
    }
  }

  // ---------------------------------------------------------------------------
  // Status colour and label
  // ---------------------------------------------------------------------------

  const KnownStatuses: set<string> := {"active", "break", "offline"}

  function StatusColor(status: string): (c: string)
    ensures c == "bg-gray-100 text-gray-800" <==> status != "active" && status != "break"
  {
    match status
    case "active" => "bg-green-100 text-green-800"
    case "break" => "bg-yellow-100 text-yellow-800"
    case "offline" => "bg-gray-100 text-gray-800"
    case _ => "bg-gray-100 text-gray-800"
  }

  function StatusText(status: string): (t: string)
    ensures t == "Unknown" <==> status !in KnownStatuses
  {
    match status
    case "active" => "Active"
    case "break" => "On Break"
    case "offline" => "Offline"
    case _ => "Unknown"
  }

  /** The badge colour cannot tell an offline driver from one with an unrecognised status;
      only the label can. Known statuses all get distinct labels. */
  lemma OfflineLooksUnknown(s: string, t: string)
    requires s !in KnownStatuses
    requires t in KnownStatuses && t != s
    ensures StatusColor(s) == StatusColor("offline")
    ensures StatusText(s) != StatusText(t)
  {
  }

  // ---------------------------------------------------------------------------
  // Facts about the seed roster
  // ---------------------------------------------------------------------------

  /** The seed roster shows 3 active drivers, a mean rating of 23.9 / 5 = 4.78, 43 packages and
      a mean efficiency of round(457 / 5) = 91. */
  lemma SeedTeamStats()
    ensures TeamStatsOf(SeedRoster) == TeamStats(3, Some(4.78), 43, Some(91))
  {
    SeedActiveCount();
    SeedMeanRating();
    SeedPackagesAndEfficiency();
  }

  lemma SeedMeanRating()
    ensures Mean(Ratings(SeedRoster)) == Some(4.78)
  {
    assert Ratings(SeedRoster) == [4.9, 4.7, 4.8, 4.9, 4.6];
    assert SumR([4.9, 4.7, 4.8, 4.9, 4.6]) == 23.9;
  }

  lemma SeedPackagesAndEfficiency()
    ensures Sum(Packages(SeedRoster)) == 43
    ensures RoundedMean(Efficiencies(SeedRoster)) == Some(91)
  {
    assert Packages(SeedRoster) == [12, 8, 15, 6, 2];
    assert Sum([12, 8, 15, 6, 2]) == 43;
    assert Efficiencies(SeedRoster) == [94, 87, 91, 96, 89];
    assert Sum([94, 87, 91, 96, 89]) == 457;
  }

  lemma SeedActiveCount()
    ensures |ActiveDrivers(SeedRoster)| == 3
  {
    var ds := SeedRoster;
    assert ActiveDrivers(ds[3..]) == [ds[3]];
    assert ActiveDrivers(ds[2..]) == [ds[3]] by { assert ds[2..][1..] == ds[3..]; }
    assert ActiveDrivers(ds[1..]) == [ds[1], ds[3]] by { assert ds[1..][1..] == ds[2..]; }
    assert ActiveDrivers(ds) == [ds[0], ds[1], ds[3]];
  }

  /** Two drivers rated 4.9 and 4.7 average 4.8, whatever else they hold. */
  lemma TwoDriverMeanRating(a: Driver, b: Driver)
    requires a.rating == 4.9 && b.rating == 4.7
    ensures TeamStatsOf([a, b]).avgRating == Some(4.8)
  {
    assert Ratings([a, b]) == [4.9, 4.7];
    assert SumR([4.9, 4.7]) == 9.6;
  }
}

=== FILE: int_text.dfy ===
/** The two JavaScript conversions the eta field goes through on every movement
    tick: `parseInt(s)` (no radix argument) and the decimal text of an integer
    produced by `n + ' min'`. */
module IntText {
  import opened Numerics

  /** The characters parseInt skips before the number: white space and line terminators. */
  predicate IsJsWhitespace(c: char)
  {
    var k := c as int;
    || k == 0x09 || k == 0x0A || k == 0x0B || k == 0x0C || k == 0x0D || k == 0x20
    || k == 0xA0 || k == 0x1680 || (0x2000 <= k <= 0x200A)
    || k == 0x2028 || k == 0x2029 || k == 0x202F || k == 0x205F || k == 0x3000 || k == 0xFEFF
  }

  function TrimStart(s: string): (t: string)
    ensures |t| <= |s|
    ensures t == [] || !IsJsWhitespace(t[0])
  {
    if |s| > 0 && IsJsWhitespace(s[0]) then TrimStart(s[1..]) else s
  }

  /** TrimStart keeps a suffix of its input and drops only white space before it. */
  lemma {:induction false} TrimStartDropsLeadingWhitespace(s: string)
    ensures TrimStart(s) == s[|s| - |TrimStart(s)|..]
    ensures forall i :: 0 <= i < |s| - |TrimStart(s)| ==> IsJsWhitespace(s[i])
  {
    if |s| > 0 && IsJsWhitespace(s[0]) {
      TrimStartDropsLeadingWhitespace(s[1..]);
      assert s[1..][|s[1..]| - |TrimStart(s)|..] == s[|s| - |TrimStart(s)|..];
      forall i | 0 <= i < |s| - |TrimStart(s)| ensures IsJsWhitespace(s[i]) {
        if i > 0 {
          assert s[i] == s[1..][i - 1];
        }
      }
    }
  }

  /** The value of c as a digit in any radix up to 36; 36 for a non-digit. */
  function DigitValue(c: char): (d: nat)
    ensures d <= 36
  {
    if '0' <= c <= '9' then c as int - '0' as int
    else if 'a' <= c <= 'z' then c as int - 'a' as int + 10
    else if 'A' <= c <= 'Z' then c as int - 'A' as int + 10
    else 36
  }

  predicate IsDigitIn(c: char, radix: nat)
  {
    DigitValue(c) < radix
  }

  /** Length of the longest prefix of s made of digits of the given radix. */
  function DigitRun(s: string, radix: nat): (k: nat)
    ensures k <= |s|
    ensures forall i :: 0 <= i < k ==> IsDigitIn(s[i], radix)
    ensures k < |s| ==> !IsDigitIn(s[k], radix)
  {
    if |s| > 0 && IsDigitIn(s[0], radix) then 1 + DigitRun(s[1..], radix) else 0
  }

  /** The value of a digit string, most significant digit first. */
  function DigitsValue(ds: string, radix: nat): nat
  {
    if |ds| == 0 then 0
    else DigitsValue(ds[..|ds| - 1], radix) * radix + DigitValue(ds[|ds| - 1])
  }

  /** parseInt(s) with no radix: skip white space, read an optional sign, then the
      magnitude. No digits at all gives NaN, modelled as None. */
  function ParseInt(s: string): (r: Option<int>)
    ensures s == [] ==> r == None
    ensures |s| > 0 && '1' <= s[0] <= '9' ==> r.Some? && r.value >= 1
  {
    var t := TrimStart(s);
    var negative := |t| > 0 && t[0] == '-';
    var u := if |t| > 0 && (t[0] == '-' || t[0] == '+') then t[1..] else t;
    match ParseMagnitude(u)
    case None => None
    case Some(m) =>
      var magnitude: int := m;
      Some(if negative then -magnitude else magnitude)
  }

  /** The unsigned part of parseInt: radix 16 after a `0x`/`0X` prefix, else radix 10,
      then the longest run of digits of that radix. */
  function ParseMagnitude(u: string): (r: Option<nat>)
    ensures u == [] ==> r == None
    ensures |u| > 0 && '1' <= u[0] <= '9' ==> r.Some? && r.value >= 1
  {
    var hex := |u| >= 2 && u[0] == '0' && (u[1] == 'x' || u[1] == 'X');
    var radix := if hex then 16 else 10;
    var w := if hex then u[2..] else u;
    var k := DigitRun(w, radix);
    if k == 0 then None
    else
      LeadingDigitPositive(w, k, radix);
      Some(DigitsValue(w[..k], radix))
  }

  /** A digit string whose first digit is non-zero has a positive value. */
  lemma LeadingDigitPositive(w: string, k: nat, radix: nat)
    requires 0 < k <= |w|
    requires radix >= 1
    ensures DigitValue(w[0]) >= 1 ==> DigitsValue(w[..k], radix) >= 1
  {
    if DigitValue(w[0]) >= 1 {
      DigitsValueAtLeastFirst(w[..k], radix);
    }
  }

  lemma {:induction false} DigitsValueAtLeastFirst(ds: string, radix: nat)
    requires |ds| > 0
    requires radix >= 1
    ensures DigitsValue(ds, radix) >= DigitValue(ds[0])
  {
    if |ds| > 1 {
      var init := ds[..|ds| - 1];
      assert init[0] == ds[0];
      DigitsValueAtLeastFirst(init, radix);
      ScaleUp(DigitsValue(init, radix), radix);
    }
  }

  lemma ScaleUp(a: nat, k: nat)
    requires k >= 1
    ensures a * k >= a
  {
  }

  /** Decimal digits of a natural number, as Number.prototype.toString writes them. */
  function Decimal(n: nat): (s: string)
    ensures |s| >= 1
    ensures forall i :: 0 <= i < |s| ==> '0' <= s[i] <= '9'
  {
    if n < 10 then ["0123456789"[n]] else Decimal(n / 10) + ["0123456789"[n % 10]]
  }

  /** The text of an integer: a minus sign for negatives, then its decimal digits. */
  function FormatInt(n: int): (s: string)
    ensures |s| >= 1
    ensures n < 0 <==> s[0] == '-'
  {
    if n < 0 then "-" + Decimal(-n) else Decimal(n)
  }

  lemma {:induction false} DecimalValue(n: nat)
    ensures DigitsValue(Decimal(n), 10) == n
  {
    if n < 10 {
      DigitCharValue(n);
    } else {
      var q, r := n / 10, n % 10;
      var s := Decimal(n);
      assert s == Decimal(q) + ["0123456789"[r]];
      assert s[..|s| - 1] == Decimal(q);
      assert s[|s| - 1] == "0123456789"[r];
      assert DigitsValue(s, 10) == DigitsValue(Decimal(q), 10) * 10 + DigitValue("0123456789"[r]);
      DecimalValue(q);
      DigitCharValue(r);
      assert n == q * 10 + r;
    }
  }

  /** The character Decimal writes for a digit reads back as that digit. */
  lemma DigitCharValue(r: nat)
    requires r < 10
    ensures DigitValue("0123456789"[r]) == r
  {
    if r == 0 { assert "0123456789"[0] == '0'; }
    else if r == 1 { assert "0123456789"[1] == '1'; }
    else if r == 2 { assert "0123456789"[2] == '2'; }
    else if r == 3 { assert "0123456789"[3] == '3'; }
    else if r == 4 { assert "0123456789"[4] == '4'; }
    else if r == 5 { assert "0123456789"[5] == '5'; }
    else if r == 6 { assert "0123456789"[6] == '6'; }
    else if r == 7 { assert "0123456789"[7] == '7'; }
    else if r == 8 { assert "0123456789"[8] == '8'; }
    else { assert "0123456789"[9] == '9'; }
  }

  /** A run of digits followed by text starting with a non-digit is read exactly to its end. */
  lemma {:induction false} DigitRunOfDigitsThen(a: string, b: string, radix: nat)
    requires forall i :: 0 <= i < |a| ==> IsDigitIn(a[i], radix)
    requires b == [] || !IsDigitIn(b[0], radix)
    ensures DigitRun(a + b, radix) == |a|
  {
    if |a| > 0 {
      assert (a + b)[1..] == a[1..] + b;
      DigitRunOfDigitsThen(a[1..], b, radix);
    }
  }

  /** The magnitude of `n + ' min'` for a natural n is n: decimal text never looks like a hex prefix. */
  lemma MagnitudeOfDecimal(m: nat)
    ensures ParseMagnitude(Decimal(m) + " min") == Some(m)
  {
    var d := Decimal(m);
    var u := d + " min";
    assert |u| >= 2 && u[0] == '0' ==> u[1] != 'x' && u[1] != 'X' by {
      if |d| == 1 { assert u[1] == ' '; } else { assert u[1] == d[1]; }
    }
    DigitRunOfDigitsThen(d, " min", 10);
    assert u[..|d|] == d;
    DecimalValue(m);
  }

  /** Text that starts with a decimal digit is read by parseInt as its magnitude ... */
  lemma ParseIntOfDigitFirst(u: string)
    requires |u| > 0 && '0' <= u[0] <= '9'
    ensures ParseMagnitude(u).Some? ==> ParseInt(u) == Some(ParseMagnitude(u).value)
  {
    assert !IsJsWhitespace(u[0]);
    assert TrimStart(u) == u;
  }

  /** ... and the same text after a minus sign as the negated magnitude. */
  lemma ParseIntOfMinusDigitFirst(u: string)
    requires |u| > 0 && '0' <= u[0] <= '9'
    ensures ParseMagnitude(u).Some? ==> ParseInt("-" + u) == Some(-(ParseMagnitude(u).value as int))
  {
    var s := "-" + u;
    assert s[0] == '-';
    assert !IsJsWhitespace('-');
    assert TrimStart(s) == s;
    assert s[1..] == u;
  }

  lemma ParseUnsignedDecimal(m: nat)
    ensures ParseInt(Decimal(m) + " min") == Some(m)
  {
    var u := Decimal(m) + " min";
    assert '0' <= u[0] <= '9';
    MagnitudeOfDecimal(m);
    ParseIntOfDigitFirst(u);
  }

  lemma ParseNegativeDecimal(m: nat)
    ensures ParseInt("-" + Decimal(m) + " min") == Some(-(m as int))
  {
    var u := Decimal(m) + " min";
    assert '0' <= u[0] <= '9';
    assert "-" + Decimal(m) + " min" == "-" + u;
    MagnitudeOfDecimal(m);
    ParseIntOfMinusDigitFirst(u);
  }

  /** Round trip: parseInt reads back every integer written as `n + ' min'`. */
  lemma ParseFormatRoundTrip(n: int)
    ensures ParseInt(FormatInt(n) + " min") == Some(n)
  {
    if n < 0 {
      var m: nat := -n;
      assert FormatInt(n) + " min" == "-" + Decimal(m) + " min";
      ParseNegativeDecimal(m);
      assert -(m as int) == n;
    } else {
      var m: nat := n;
      assert FormatInt(n) + " min" == Decimal(m) + " min";
      ParseUnsignedDecimal(m);
    }
  }
}

=== FILE: kpi_metrics.dfy ===
/** The KPI cards: six committed metrics that random-walk every metric tick,
    and the count-up animation that takes each card from 0 to its value on mount. */
module KpiMetrics {
  import opened Numerics

  /** The committed metric values. */
  datatype Metrics = Metrics(
    deliverySuccess: real,
    dailySavings: int,
    totalDeliveries: int,
    customerSatisfaction: real,
    activeDrivers: int,
    avgDeliveryTime: real)

  /** The six Math.random() results one metric tick consumes, in evaluation order. */
  datatype MetricDraws = MetricDraws(
    deliverySuccess: Draw,
    dailySavings: Draw,
    totalDeliveries: Draw,
    customerSatisfaction: Draw,
    activeDrivers: Draw,
    avgDeliveryTime: Draw)

  const InitialMetrics: Metrics := Metrics(94.2, 47120, 2847, 4.87, 156, 23.4)

  // ---------------------------------------------------------------------------
  // Metric tick
  // ---------------------------------------------------------------------------

  /** The ranges the tick enforces. The success rate is capped above only. */
  ghost predicate InRange(m: Metrics)
  {
    && m.deliverySuccess <= 99.9
    && 4.5 <= m.customerSatisfaction <= 5.0
    && 140 <= m.activeDrivers <= 180
    && 20.0 <= m.avgDeliveryTime <= 30.0
  }

  /** One metric tick. Each field moves only with its own previous value and its own draw. */
  function MetricTick(m: Metrics, d: MetricDraws): (n: Metrics)
    ensures InRange(n)
    ensures MinR(99.9, m.deliverySuccess - 0.05) <= n.deliverySuccess <= m.deliverySuccess + 0.05
    ensures m.dailySavings <= n.dailySavings <= m.dailySavings + 99
    ensures m.totalDeliveries <= n.totalDeliveries <= m.totalDeliveries + 2
    ensures 4.5 <= m.customerSatisfaction <= 5.0 ==>
      -0.005 <= n.customerSatisfaction - m.customerSatisfaction <= 0.005
    ensures Min(m.activeDrivers - 1, 180) <= n.activeDrivers <= Max(m.activeDrivers, 140)
    ensures 20.0 <= m.avgDeliveryTime <= 30.0 ==>
      -0.25 <= n.avgDeliveryTime - m.avgDeliveryTime <= 0.25
  {
    Metrics(
      MinR(99.9, m.deliverySuccess + Jitter(d.deliverySuccess, 0.1)),
      m.dailySavings + Below(d.dailySavings, 100),
      m.totalDeliveries + Below(d.totalDeliveries, 3),
      MinR(5.0, MaxR(4.5, m.customerSatisfaction + Jitter(d.customerSatisfaction, 0.01))),
      Max(140, Min(180, m.activeDrivers + UnitStep(d.activeDrivers))),
      MaxR(20.0, MinR(30.0, m.avgDeliveryTime + Jitter(d.avgDeliveryTime, 0.5))))
  }

  /** The neutral draw 0.5 for the walking metrics and the lowest draw for the two counters
      leave an in-range record exactly where it is. */
  lemma NeutralTick(m: Metrics)
    requires InRange(m)
    ensures MetricTick(m, MetricDraws(0.5, 0.0, 0.0, 0.5, 0.5, 0.5)) == m
  {
  }

  /** A sequence of metric ticks. Whatever the starting record, one tick already lands in range. */
  function RunMetrics(m: Metrics, ticks: seq<MetricDraws>): (n: Metrics)
    ensures |ticks| > 0 ==> InRange(n)
    ensures n.dailySavings >= m.dailySavings && n.totalDeliveries >= m.totalDeliveries
    decreases |ticks|
  {
    if |ticks| == 0 then m else RunMetrics(MetricTick(m, ticks[0]), ticks[1..])
  }

  /** Running two batches of ticks is running them back to back. */
  lemma {:induction false} RunMetricsAppend(m: Metrics, first: seq<MetricDraws>, second: seq<MetricDraws>)
    ensures RunMetrics(m, first + second) == RunMetrics(RunMetrics(m, first), second)
    decreases |first|
  {
    if |first| == 0 {
      assert first + second == second;
    } else {
      assert (first + second)[1..] == first[1..] + second;
      RunMetricsAppend(MetricTick(m, first[0]), first[1..], second);
    }
  }

  /** The initial values are already in range, so every committed state is. */
  lemma {:induction false} RunMetricsInRange(m: Metrics, ticks: seq<MetricDraws>)
    requires InRange(m)
    ensures InRange(RunMetrics(m, ticks))
    decreases |ticks|
  {
    if |ticks| > 0 {
      RunMetricsInRange(MetricTick(m, ticks[0]), ticks[1..]);
    }
  }

  lemma InitialMetricsInRange()
    ensures InRange(InitialMetrics)
  {
  }

  /** Savings and deliveries never fall, and rise by at most 99 and 2 per tick. */
  lemma {:induction false} RunMetricsMonotone(m: Metrics, ticks: seq<MetricDraws>)
    ensures var n := RunMetrics(m, ticks);
      && m.dailySavings <= n.dailySavings <= m.dailySavings + 99 * |ticks|
      && m.totalDeliveries <= n.totalDeliveries <= m.totalDeliveries + 2 * |ticks|
    decreases |ticks|
  {
    if |ticks| > 0 {
      RunMetricsMonotone(MetricTick(m, ticks[0]), ticks[1..]);
    }
  }

  /** The lowest draws on every tick. */
  function LowestDraws(k: nat): (ds: seq<MetricDraws>)
    ensures |ds| == k
  {
    seq(k, _ => MetricDraws(0.0, 0.0, 0.0, 0.0, 0.0, 0.0))
  }

  /** The success rate has no lower clamp: on the lowest draws it falls by 0.05 every tick,
      so from 94.2 it is negative after 1885 ticks. */
  lemma {:induction false} SuccessRateHasNoFloor(m: Metrics, k: nat)
    requires m.deliverySuccess <= 99.9
    ensures RunMetrics(m, LowestDraws(k)).deliverySuccess == m.deliverySuccess - 0.05 * k as real
    decreases k
  {
    if k > 0 {
      assert LowestDraws(k)[1..] == LowestDraws(k - 1);
      SuccessRateHasNoFloor(MetricTick(m, LowestDraws(k)[0]), k - 1);
    }
  }

  lemma SuccessRateGoesNegative()
    ensures RunMetrics(InitialMetrics, LowestDraws(1885)).deliverySuccess < 0.0
  {
    SuccessRateHasNoFloor(InitialMetrics, 1885);
  }

  // ---------------------------------------------------------------------------
  // Count-up animation
  // ---------------------------------------------------------------------------

  const FrameIntervalMs: real := 16.0
  const DefaultDurationMs: real := 2000.0

  /** `target / (duration / 16)`: how far each frame advances. */
  function Increment(target: real, duration: real): (inc: real)
    requires duration > 0.0
    ensures inc * (duration / FrameIntervalMs) == target
    ensures (inc > 0.0 <==> target > 0.0) && (inc < 0.0 <==> target < 0.0)
  {
    target / (duration / FrameIntervalMs)
  }

  /** The number of frames an animation towards a positive target emits: the least whole
      number of frames covering the duration. */
  function FrameCount(duration: real): (n: nat)
    requires duration > 0.0
    ensures n >= 1
    ensures (n - 1) as real < duration / FrameIntervalMs <= n as real
  {
    var q := duration / FrameIntervalMs;
    if q.Floor as real == q then q.Floor else q.Floor + 1
  }

  /** At 2000 ms the count-up takes 125 frames. */
  lemma DefaultFrameCount()
    ensures FrameCount(DefaultDurationMs) == 125
  {
  }

  /** For a positive target, k frames of the increment reach the target exactly when
      k frame intervals cover the duration. */
  lemma ReachesTarget(target: real, duration: real, k: nat)
    requires target > 0.0 && duration > 0.0
    ensures k as real * Increment(target, duration) >= target <==> k >= FrameCount(duration)
  {
    var q := duration / FrameIntervalMs;
    var inc := Increment(target, duration);
    assert inc * q == target;
    assert k as real * inc * q == k as real * target;
    if k as real * inc >= target {
      ScaleMonotone(target, k as real * inc, q);
      assert k as real * target >= target * q;
      ScaleCancel(q, k as real, target);
    } else {
      ScaleStrict(k as real * inc, target, q);
      assert k as real * target < target * q;
      ScaleCancelStrict(k as real, q, target);
    }
  }

  lemma ScaleMonotone(a: real, b: real, c: real)
    requires a <= b && c > 0.0
    ensures a * c <= b * c
  {
  }

  lemma ScaleStrict(a: real, b: real, c: real)
    requires a < b && c > 0.0
    ensures a * c < b * c
  {
  }

  lemma ScaleCancel(q: real, k: real, t: real)
    requires t > 0.0 && k * t >= t * q
    ensures k >= q
  {
  }

  lemma ScaleCancelStrict(k: real, q: real, t: real)
    requires t > 0.0 && k * t < t * q
    ensures k < q
  {
  }

  /** With a non-positive target and a duration of at least one frame, the first step already
      reaches the target. */
  lemma FirstStepReachesNonPositive(target: real, duration: real)
    requires target <= 0.0 && duration >= FrameIntervalMs
    ensures Increment(target, duration) >= target
  {
    var q := duration / FrameIntervalMs;
    assert q >= 1.0;
    assert Increment(target, duration) * q == target;
  }

  /** Outside Animate's precondition the component's timer never stops: with a negative target
      and a duration below one frame, every frame lies below the target, so `current >= target`
      never holds. */
  lemma NegativeTargetNeverSettles(target: real, duration: real, k: nat)
    requires target < 0.0 && 0.0 < duration < FrameIntervalMs
    requires k >= 1
    ensures k as real * Increment(target, duration) < target
  {
    var q := duration / FrameIntervalMs;
    var inc := Increment(target, duration);
    assert q < 1.0;
    assert inc * q == target;
    assert inc < target;
    assert k as real * inc <= inc;
  }

  /** The values the count-up hands to the display, as a closed form: for a positive target,
      FrameCount(duration) frames, each one increment further than the last, with the final one
      replaced by the target; for any other target, the target alone. Only defined where the
      timer stops, as for Animate. */
  function AnimationFrames(target: real, duration: real): (fs: seq<real>)
    requires duration > 0.0
    requires target >= 0.0 || duration >= FrameIntervalMs
    ensures |fs| >= 1 && fs[|fs| - 1] == target
    ensures target > 0.0 ==> |fs| == FrameCount(duration)
  {
    if target > 0.0 then
      var n := FrameCount(duration);
      seq(n, i requires 0 <= i < n => if i < n - 1 then (i + 1) as real * Increment(target, duration) else target)
    else [target]
  }

  /** The count-up never overshoots, ends exactly on its target, climbs strictly for a positive
      target, and at the default duration a positive target takes 125 frames. */
  lemma AnimationFramesShape(target: real, duration: real)
    requires duration > 0.0
    requires target >= 0.0 || duration >= FrameIntervalMs
    ensures var fs := AnimationFrames(target, duration);
      && fs[|fs| - 1] == target
      && (forall i :: 0 <= i < |fs| ==> fs[i] <= target)
      && (target > 0.0 ==> |fs| == FrameCount(duration))
      && (target > 0.0 ==> forall i, j :: 0 <= i < j < |fs| ==> fs[i] < fs[j])
      && (target > 0.0 && duration == DefaultDurationMs ==> |fs| == 125)
      && (target <= 0.0 ==> fs == [target])
  {
    var fs := AnimationFrames(target, duration);
    if target > 0.0 {
      forall i | 0 <= i < |fs| ensures fs[i] <= target {
        if i < |fs| - 1 {
          FrameBelowTarget(target, duration, i);
        }
      }
      forall i, j | 0 <= i < j < |fs| ensures fs[i] < fs[j] {
        FramesIncrease(target, duration, i, j);
      }
      DefaultFrameCount();
    }
  }

  /** Every frame before the last is i + 1 increments and still short of a positive target. */
  lemma FrameBelowTarget(target: real, duration: real, i: nat)
    requires target > 0.0 && duration > 0.0
    requires i < FrameCount(duration) - 1
    ensures AnimationFrames(target, duration)[i] == (i + 1) as real * Increment(target, duration)
    ensures AnimationFrames(target, duration)[i] < target
  {
    ReachesTarget(target, duration, i + 1);
  }

  /** For a positive target a later frame is strictly higher than an earlier one. */
  lemma FramesIncrease(target: real, duration: real, i: nat, j: nat)
    requires target > 0.0 && duration > 0.0
    requires i < j < FrameCount(duration)
    ensures AnimationFrames(target, duration)[i] < AnimationFrames(target, duration)[j]
  {
    var fs := AnimationFrames(target, duration);
    var inc := Increment(target, duration);
    FrameBelowTarget(target, duration, i);
    if j < FrameCount(duration) - 1 {
      FrameBelowTarget(target, duration, j);
      assert inc > 0.0;
      ScaleStrict((i + 1) as real, (j + 1) as real, inc);
    } else {
      assert fs[j] == target;
    }
  }

  /** `animateValue(key, target, duration)`: starting from 0, each 16 ms frame adds the increment;
      the first value at or past the target is replaced by the target, emitted, and the timer
      stops. Returns the values handed to the display, in order. */
  method Animate(target: real, duration: real) returns (frames: seq<real>)
    requires duration > 0.0
    requires target >= 0.0 || duration >= FrameIntervalMs
    ensures frames == AnimationFrames(target, duration)
    ensures |frames| >= 1 && frames[|frames| - 1] == target
    ensures forall i :: 0 <= i < |frames| ==> frames[i] <= target
    ensures target > 0.0 ==> forall i, j :: 0 <= i < j < |frames| ==> frames[i] < frames[j]
  {
    var increment := target / (duration / 16.0);
    var current := 0.0;
    var done := false;
    frames := [];
    ghost var expected := AnimationFrames(target, duration);
    while !done
      invariant increment == Increment(target, duration)
      invariant !done ==> |frames| < |expected| && current == |frames| as real * increment
      invariant !done ==> frames == expected[..|frames|]
      invariant done ==> frames == expected
      decreases if done then 0 else |expected| + 1 - |frames|
    {
      current := current + increment;
      ghost var k := |frames| + 1;
      assert current == k as real * increment;
      if target > 0.0 {
        ReachesTarget(target, duration, k);
      } else if target < 0.0 {
        FirstStepReachesNonPositive(target, duration);
      }
      if current >= target {
        current := target;
        done := true;
      }
      ghost var before := frames;
      frames := frames + [current];
      if !done {
        assert target > 0.0 && k < |expected|;
        assert expected[k - 1] == current;
        assert frames == expected[..k] by {
          assert before == expected[..k - 1];
        }
      }
    }
    AnimationFramesShape(target, duration);
  }

  /** The mount effect's values in `Object.entries` order. */
  function Fields(m: Metrics): (fs: seq<real>)
    ensures |fs| == 6
  {
    [m.deliverySuccess, m.dailySavings as real, m.totalDeliveries as real,
     m.customerSatisfaction, m.activeDrivers as real, m.avgDeliveryTime]
  }

  /** On mount every card counts up from 0 to its value over the default 2000 ms;
      each animation ends exactly on its value, and a positive value takes 125 frames. */
  method MountAnimations(m: Metrics) returns (animations: seq<seq<real>>)
    ensures |animations| == 6
    ensures forall k :: 0 <= k < 6 ==>
      |animations[k]| >= 1 && animations[k][|animations[k]| - 1] == Fields(m)[k]
    ensures forall k :: 0 <= k < 6 && Fields(m)[k] > 0.0 ==> |animations[k]| == 125
    ensures forall k :: 0 <= k < 6 ==> animations[k] == AnimationFrames(Fields(m)[k], DefaultDurationMs)
  {
    DefaultFrameCount();
    animations := [];
    var fields := Fields(m);
    for k := 0 to 6
      invariant |animations| == k
      invariant forall j :: 0 <= j < k ==> animations[j] == AnimationFrames(fields[j], DefaultDurationMs)
    {
      var frames := Animate(fields[k], DefaultDurationMs);
      animations := animations + [frames];
    }
  }
}

=== FILE: numerics.dfy ===
/** Numeric helpers shared by the simulation components: the random draw type,
    JavaScript's Math.round, sums and means over rosters, and clamping. */
module Numerics {

  /** A value the JavaScript engine may have produced as `NaN` is modelled as `None`. */
  datatype Option<T> = None | Some(value: T)

  /** One result of Math.random(): a real number in [0, 1). */
  type Draw = r: real | 0.0 <= r < 1.0

  /** `(Math.random() - 0.5) * scale`: a symmetric real step of at most half the scale. */
  function Jitter(r: Draw, scale: real): (d: real)
    requires scale > 0.0
    ensures -scale / 2.0 <= d < scale / 2.0
  {
    (r - 0.5) * scale
  }

  /** `Math.floor((Math.random() - 0.5) * 2)`: minus one for the lower half of the draws, else zero. */
  function UnitStep(r: Draw): (d: int)
    ensures d == (if r < 0.5 then -1 else 0)
  {
    ((r - 0.5) * 2.0).Floor
  }

  /** `Math.floor(Math.random() * n)`: a whole number from 0 to n - 1. */
  function Below(r: Draw, n: nat): (k: int)
    requires n >= 1
    ensures 0 <= k < n
  {
    (r * n as real).Floor
  }

  function Min(a: int, b: int): int { if a <= b then a else b }

  function Max(a: int, b: int): int { if a >= b then a else b }

  function MinR(a: real, b: real): real { if a <= b then a else b }

  function MaxR(a: real, b: real): real { if a >= b then a else b }

  /** Math.round: the nearest integer, halves rounded towards +infinity. */
  function Round(x: real): (n: int)
    ensures x - 0.5 < n as real <= x + 0.5
  {
    (x + 0.5).Floor
  }

  /** Rounding is monotone and leaves integers alone. */
  lemma RoundMonotone(x: real, y: real)
    requires x <= y
    ensures Round(x) <= Round(y)
  {
  }

  lemma RoundOfInteger(n: int)
    ensures Round(n as real) == n
  {
  }

  /** `xs.reduce((sum, x) => sum + x, 0)` over integers. */
  function Sum(xs: seq<int>): int
  {
    if |xs| == 0 then 0 else xs[0] + Sum(xs[1..])
  }

  /** `xs.reduce((sum, x) => sum + x, 0)` over reals. */
  function SumR(xs: seq<real>): real
  {
    if |xs| == 0 then 0.0 else xs[0] + SumR(xs[1..])
  }

  /** `xs.reduce((sum, x) => sum + x, acc)` as JavaScript evaluates it: a left fold that
      adds the elements to the accumulator from the first to the last. */
  function FoldSum(acc: int, xs: seq<int>): int
    decreases |xs|
  {
    if |xs| == 0 then acc else FoldSum(acc + xs[0], xs[1..])
  }

  function FoldSumR(acc: real, xs: seq<real>): real
    decreases |xs|
  {
    if |xs| == 0 then acc else FoldSumR(acc + xs[0], xs[1..])
  }

  /** The left fold from any accumulator adds `Sum` to it; from 0 it is `Sum`. */
  lemma {:induction false} FoldSumIsSum(acc: int, xs: seq<int>)
    ensures FoldSum(acc, xs) == acc + Sum(xs)
    ensures FoldSum(0, xs) == Sum(xs)
    decreases |xs|
  {
    if |xs| > 0 {
      FoldSumIsSum(acc + xs[0], xs[1..]);
      FoldSumIsSum(xs[0], xs[1..]);
    }
  }

  lemma {:induction false} FoldSumRIsSumR(acc: real, xs: seq<real>)
    ensures FoldSumR(acc, xs) == acc + SumR(xs)
    ensures FoldSumR(0.0, xs) == SumR(xs)
    decreases |xs|
  {
    if |xs| > 0 {
      FoldSumRIsSumR(acc + xs[0], xs[1..]);
      FoldSumRIsSumR(xs[0], xs[1..]);
    }
  }

  /** Appending an element adds it to the sum: the reduce step, for the right fold. */
  lemma {:induction false} SumAppend(xs: seq<int>, x: int)
    ensures Sum(xs + [x]) == Sum(xs) + x
    decreases |xs|
  {
    if |xs| == 0 {
      assert xs + [x] == [x];
    } else {
      assert (xs + [x])[1..] == xs[1..] + [x];
      SumAppend(xs[1..], x);
    }
  }

  lemma {:induction false} SumRAppend(xs: seq<real>, x: real)
    ensures SumR(xs + [x]) == SumR(xs) + x
    decreases |xs|
  {
    if |xs| == 0 {
      assert xs + [x] == [x];
    } else {
      assert (xs + [x])[1..] == xs[1..] + [x];
      SumRAppend(xs[1..], x);
    }
  }

  ghost predicate AllWithin(xs: seq<int>, lo: int, hi: int)
  {
    forall i :: 0 <= i < |xs| ==> lo <= xs[i] <= hi
  }

  /** A sum of n values in [lo, hi] lies in [n * lo, n * hi]. */
  lemma {:induction false} SumWithin(xs: seq<int>, lo: int, hi: int)
    requires AllWithin(xs, lo, hi)
    ensures lo * |xs| <= Sum(xs) <= hi * |xs|
  {
    if |xs| > 0 {
      assert AllWithin(xs[1..], lo, hi) by {
        forall i | 0 <= i < |xs[1..]| ensures lo <= xs[1..][i] <= hi {
          assert xs[1..][i] == xs[i + 1];
        }
      }
      SumWithin(xs[1..], lo, hi);
      assert lo * |xs| == lo + lo * |xs[1..]|;
      assert hi * |xs| == hi + hi * |xs[1..]|;
    }
  }

  /** Sums respect a pointwise order. */
  lemma {:induction false} SumMonotone(xs: seq<int>, ys: seq<int>)
    requires |xs| == |ys|
    requires forall i :: 0 <= i < |xs| ==> xs[i] <= ys[i]
    ensures Sum(xs) <= Sum(ys)
  {
    if |xs| > 0 {
      assert forall i :: 0 <= i < |xs[1..]| ==> xs[1..][i] == xs[i + 1];
      assert forall i :: 0 <= i < |ys[1..]| ==> ys[1..][i] == ys[i + 1];
      SumMonotone(xs[1..], ys[1..]);
    }
  }

  /** When every element drops by at most k, the sum drops by at most k per element. */
  lemma {:induction false} SumDropBounded(xs: seq<int>, ys: seq<int>, k: int)
    requires |xs| == |ys|
    requires forall i :: 0 <= i < |xs| ==> ys[i] - k <= xs[i]
    ensures Sum(ys) - k * |ys| <= Sum(xs)
  {
    if |xs| > 0 {
      assert forall i :: 0 <= i < |xs[1..]| ==> xs[1..][i] == xs[i + 1];
      assert forall i :: 0 <= i < |ys[1..]| ==> ys[1..][i] == ys[i + 1];
      SumDropBounded(xs[1..], ys[1..], k);
      assert k * |ys| == k + k * |ys[1..]|;
    }
  }

  /** `Math.round(sum / xs.length)`; on an empty list JavaScript computes 0/0 = NaN. */
  function RoundedMean(xs: seq<int>): (r: Option<int>)
    ensures r.None? <==> |xs| == 0
  {
    if |xs| == 0 then None else Some(Round(Sum(xs) as real / |xs| as real))
  }

  /** `sum / xs.length` over reals; NaN on an empty list. */
  function Mean(xs: seq<real>): (r: Option<real>)
    ensures r.None? <==> |xs| == 0
    ensures r.Some? ==> r.value * |xs| as real == SumR(xs)
  {
    if |xs| == 0 then None else Some(SumR(xs) / |xs| as real)
  }

  /** The rounded mean of a non-empty list of values in [lo, hi] is itself in [lo, hi]. */
  lemma RoundedMeanWithin(xs: seq<int>, lo: int, hi: int)
    requires |xs| > 0
    requires AllWithin(xs, lo, hi)
    ensures RoundedMean(xs).Some?
    ensures lo <= RoundedMean(xs).value <= hi
  {
    var n := |xs| as real;
    var s := Sum(xs) as real;
    SumWithin(xs, lo, hi);
    assert lo as real * n <= s <= hi as real * n;
    assert lo as real <= s / n <= hi as real by {
      DivideBounds(s, n, lo as real, hi as real);
    }
    RoundMonotone(lo as real, s / n);
    RoundMonotone(s / n, hi as real);
    RoundOfInteger(lo);
    RoundOfInteger(hi);
  }

  lemma DivideBounds(s: real, n: real, lo: real, hi: real)
    requires n > 0.0
    requires lo * n <= s <= hi * n
    ensures lo <= s / n <= hi
  {
    assert s / n * n == s;
  }

  /** The smallest and the largest element of a non-empty list. */
  function SeqMin(xs: seq<int>): (m: int)
    requires |xs| > 0
    ensures m in xs
    ensures forall i :: 0 <= i < |xs| ==> m <= xs[i]
  {
    if |xs| == 1 then xs[0] else Min(xs[0], SeqMin(xs[1..]))
  }

  function SeqMax(xs: seq<int>): (m: int)
    requires |xs| > 0
    ensures m in xs
    ensures forall i :: 0 <= i < |xs| ==> xs[i] <= m
  {
    if |xs| == 1 then xs[0] else Max(xs[0], SeqMax(xs[1..]))
  }

  /** The rounded mean of a non-empty list lies between its minimum and maximum. */
  lemma RoundedMeanBetweenExtremes(xs: seq<int>)
    requires |xs| > 0
    ensures RoundedMean(xs).Some?
    ensures SeqMin(xs) <= RoundedMean(xs).value <= SeqMax(xs)
  {
    RoundedMeanWithin(xs, SeqMin(xs), SeqMax(xs));
  }

  /** `Math.min(hi, Math.max(lo, x))`: the point of [lo, hi] nearest to x. */
  function Clamp(x: real, lo: real, hi: real): (r: real)
    requires lo <= hi
    ensures lo <= r <= hi
    ensures lo <= x <= hi ==> r == x
    ensures x < lo ==> r == lo
    ensures hi < x ==> r == hi
  {
    MinR(hi, MaxR(lo, x))
  }

  /** The components write some clamps as `Math.max(lo, Math.min(hi, x))`: for lo <= hi the two agree. */
  lemma ClampOrderIrrelevant(x: real, lo: real, hi: real)
    requires lo <= hi
    ensures MaxR(lo, MinR(hi, x)) == Clamp(x, lo, hi)
  {
  }

  /** Clamping is idempotent and moves two points no further apart. */
  lemma ClampIdempotent(x: real, lo: real, hi: real)
    requires lo <= hi
    ensures Clamp(Clamp(x, lo, hi), lo, hi) == Clamp(x, lo, hi)
  {
  }

  lemma ClampNonExpansive(x: real, y: real, lo: real, hi: real)
    requires lo <= hi
    requires x <= y
    ensures 0.0 <= Clamp(y, lo, hi) - Clamp(x, lo, hi) <= y - x
  {
  }
}

=== FILE: predictive_insights.dfy ===
/** The AI performance panel: four prediction percentages that drift inside fixed
    bands every five seconds, and a fixed feed of four insights whose priority
    picks a border colour and a badge colour. */
module PredictiveInsights {
  import opened Numerics

  datatype Predictions = Predictions(
    etaAccuracy: real,
    riskPrediction: real,
    costSavings: real,
    deliverySuccess: real)

  /** The four draws of one update, in the order the object literal evaluates them. */
  datatype PredictionDraws = PredictionDraws(
    etaAccuracy: Draw,
    riskPrediction: Draw,
    costSavings: Draw,
    deliverySuccess: Draw)

  const InitialPredictions := Predictions(96.7, 92.8, 2.8, 94.2)

  /** The band each prediction is kept in. */
  ghost predicate InRange(p: Predictions)
  {
    && 90.0 <= p.etaAccuracy <= 99.9
    && 85.0 <= p.riskPrediction <= 99.9
    && 2.0 <= p.costSavings <= 4.0
    && 90.0 <= p.deliverySuccess <= 99.9
  }

  /** One update: each value takes a symmetric random step and is clamped to its band.
      The cost clamp is written with min inside max, the others with max inside min. */
  function PredictionTick(p: Predictions, d: PredictionDraws): (q: Predictions)
    ensures InRange(q)
    ensures InRange(p) ==>
      && -0.1 <= q.etaAccuracy - p.etaAccuracy <= 0.1
      && -0.15 <= q.riskPrediction - p.riskPrediction <= 0.15
      && -0.05 <= q.costSavings - p.costSavings <= 0.05
      && -0.05 <= q.deliverySuccess - p.deliverySuccess <= 0.05
  {
    Predictions(
      MinR(99.9, MaxR(90.0, p.etaAccuracy + Jitter(d.etaAccuracy, 0.2))),
      MinR(99.9, MaxR(85.0, p.riskPrediction + Jitter(d.riskPrediction, 0.3))),
      MaxR(2.0, MinR(4.0, p.costSavings + Jitter(d.costSavings, 0.1))),
      MinR(99.9, MaxR(90.0, p.deliverySuccess + Jitter(d.deliverySuccess, 0.1))))
  }

  /** Every update is the same kind of map: step, then take the nearest point of the band. */
  lemma PredictionTickIsClampedStep(p: Predictions, d: PredictionDraws)
    ensures PredictionTick(p, d) == Predictions(
      Clamp(p.etaAccuracy + Jitter(d.etaAccuracy, 0.2), 90.0, 99.9),
      Clamp(p.riskPrediction + Jitter(d.riskPrediction, 0.3), 85.0, 99.9),
      Clamp(p.costSavings + Jitter(d.costSavings, 0.1), 2.0, 4.0),
      Clamp(p.deliverySuccess + Jitter(d.deliverySuccess, 0.1), 90.0, 99.9))
  {
    ClampOrderIrrelevant(p.costSavings + Jitter(d.costSavings, 0.1), 2.0, 4.0);
  }

  /** A draw of exactly one half makes no step. */
  const NeutralDraws := PredictionDraws(0.5, 0.5, 0.5, 0.5)

  /** With neutral draws an update only clamps, so values already in their bands stay put... */
  lemma NeutralTickKeepsInRange(p: Predictions)
    requires InRange(p)
    ensures PredictionTick(p, NeutralDraws) == p
  {
  }

  /** ...and clamping twice is clamping once. */
  lemma NeutralTickIdempotent(p: Predictions)
    ensures PredictionTick(PredictionTick(p, NeutralDraws), NeutralDraws) == PredictionTick(p, NeutralDraws)
  {
    NeutralTickKeepsInRange(PredictionTick(p, NeutralDraws));
  }

  /** Two panels fed the same draws never drift further apart. */
  lemma PredictionTickNonExpansive(p: Predictions, p': Predictions, d: PredictionDraws)
    requires p.etaAccuracy <= p'.etaAccuracy
    requires p.riskPrediction <= p'.riskPrediction
    requires p.costSavings <= p'.costSavings
    requires p.deliverySuccess <= p'.deliverySuccess
    ensures var q, q' := PredictionTick(p, d), PredictionTick(p', d);
      && 0.0 <= q'.etaAccuracy - q.etaAccuracy <= p'.etaAccuracy - p.etaAccuracy
      && 0.0 <= q'.riskPrediction - q.riskPrediction <= p'.riskPrediction - p.riskPrediction
      && 0.0 <= q'.costSavings - q.costSavings <= p'.costSavings - p.costSavings
      && 0.0 <= q'.deliverySuccess - q.deliverySuccess <= p'.deliverySuccess - p.deliverySuccess
  {
    PredictionTickIsClampedStep(p, d);
    PredictionTickIsClampedStep(p', d);
    ClampNonExpansive(p.etaAccuracy + Jitter(d.etaAccuracy, 0.2), p'.etaAccuracy + Jitter(d.etaAccuracy, 0.2), 90.0, 99.9);
    ClampNonExpansive(p.riskPrediction + Jitter(d.riskPrediction, 0.3), p'.riskPrediction + Jitter(d.riskPrediction, 0.3), 85.0, 99.9);
    ClampNonExpansive(p.costSavings + Jitter(d.costSavings, 0.1), p'.costSavings + Jitter(d.costSavings, 0.1), 2.0, 4.0);
    ClampNonExpansive(p.deliverySuccess + Jitter(d.deliverySuccess, 0.1), p'.deliverySuccess + Jitter(d.deliverySuccess, 0.1), 90.0, 99.9);
  }

  /** Successive updates, oldest draws first. Whatever the starting values, one update
      already puts every prediction in its band. */
  function RunPredictions(p: Predictions, ticks: seq<PredictionDraws>): (q: Predictions)
    ensures |ticks| > 0 ==> InRange(q)
    decreases |ticks|
  {
    if |ticks| == 0 then p else RunPredictions(PredictionTick(p, ticks[0]), ticks[1..])
  }

  /** Running two batches of updates is running them back to back. */
  lemma {:induction false} RunPredictionsAppend(p: Predictions, first: seq<PredictionDraws>, second: seq<PredictionDraws>)
    ensures RunPredictions(p, first + second) == RunPredictions(RunPredictions(p, first), second)
    decreases |first|
  {
    if |first| == 0 {
      assert first + second == second;
    } else {
      assert (first + second)[1..] == first[1..] + second;
      RunPredictionsAppend(PredictionTick(p, first[0]), first[1..], second);
    }
  }

  lemma InitialPredictionsInRange()
    ensures InRange(InitialPredictions)
  {
  }

  /** The bands hold from the first render on, whatever the draws. */
  lemma {:induction false} RunPredictionsInRange(p: Predictions, ticks: seq<PredictionDraws>)
    requires InRange(p)
    ensures InRange(RunPredictions(p, ticks))
    decreases |ticks|
  {
    if |ticks| > 0 {
      RunPredictionsInRange(PredictionTick(p, ticks[0]), ticks[1..]);
    }
  }

  /** Any run of updates moves each value by at most half its step scale per update. */
  lemma {:induction false} RunPredictionsDrift(p: Predictions, ticks: seq<PredictionDraws>)
    requires InRange(p)
    ensures var q, n := RunPredictions(p, ticks), |ticks| as real;
      && -0.1 * n <= q.etaAccuracy - p.etaAccuracy <= 0.1 * n
      && -0.15 * n <= q.riskPrediction - p.riskPrediction <= 0.15 * n
      && -0.05 * n <= q.costSavings - p.costSavings <= 0.05 * n
      && -0.05 * n <= q.deliverySuccess - p.deliverySuccess <= 0.05 * n
    decreases |ticks|
  {
    if |ticks| > 0 {
      RunPredictionsDrift(PredictionTick(p, ticks[0]), ticks[1..]);
    }
  }

  /** One card of the insight feed; the icon component is left out. */
  datatype Insight = Insight(
    id: int,
    kind: string,
    priority: string,
    title: string,
    description: string,
    impact: string,
    confidence: int,
    color: string,
    bgColor: string)

  /** The feed the panel mounts with, in display order. */
  const SeedInsights := [
    Insight(1, "optimization", "high", "Route Optimization Opportunity",
      "AI detected 15% efficiency gain possible on Route 7 by adjusting delivery sequence.",
      "+$1,200 daily savings", 94, "text-green-600", "bg-green-50"),
    Insight(2, "risk", "medium", "Weather Impact Alert",
      "Predicted rain at 3 PM may delay 8 deliveries in Capitol Hill area.",
      "12 min avg delay", 87, "text-yellow-600", "bg-yellow-50"),
    Insight(3, "success", "low", "Customer Availability Prediction",
      "AI predicts 96% customer availability for afternoon deliveries based on historical data.",
      "+3% success rate", 91, "text-blue-600", "bg-blue-50"),
    Insight(4, "efficiency", "high", "Driver Performance Insight",
      "Sarah Chen consistently outperforms ETA predictions by 8%. Consider route expansion.",
      "+5 deliveries/day", 98, "text-purple-600", "bg-purple-50")
  ]

  const KnownPriorities: set<string> := {"high", "medium", "low"}

  /** Ids serve as React keys, so they must be distinct; confidences are percentages. */
  ghost predicate WellFormedFeed(feed: seq<Insight>)
  {
    && (forall i, j :: 0 <= i < j < |feed| ==> feed[i].id != feed[j].id)
    && (forall i :: 0 <= i < |feed| ==> 0 <= feed[i].confidence <= 100)
    && (forall i :: 0 <= i < |feed| ==> feed[i].priority in KnownPriorities)
  }

  lemma SeedFeedWellFormed()
    ensures |SeedInsights| == 4
    ensures forall i :: 0 <= i < |SeedInsights| ==> SeedInsights[i].id == i + 1
    ensures WellFormedFeed(SeedInsights)
  {
  }

  /** The feed is shown in seed order, which is not ordered by priority: a low
      insight precedes a high one. */
  lemma SeedFeedNotPriorityOrdered()
    ensures exists i, j :: (0 <= i < j < |SeedInsights|
      && SeedInsights[i].priority == "low" && SeedInsights[j].priority == "high")
  {
    assert SeedInsights[2].priority == "low" && SeedInsights[3].priority == "high";
  }

  /** getPriorityColor: the left border of a card. */
  function PriorityBorder(priority: string): (c: string)
    ensures c == "border-l-gray-500" <==> priority !in KnownPriorities
  {
    match priority
    case "high" => "border-l-red-500"
    case "medium" => "border-l-yellow-500"
    case "low" => "border-l-green-500"
    case _ => "border-l-gray-500"
  }

  /** The priority badge: a chain of two comparisons that sends everything else to green. */
  function PriorityBadge(priority: string): (c: string)
    ensures c == "bg-green-100 text-green-800" <==> priority != "high" && priority != "medium"
  {
    if priority == "high" then "bg-red-100 text-red-800"
    else if priority == "medium" then "bg-yellow-100 text-yellow-800"
    else "bg-green-100 text-green-800"
  }

  /** The colour family a border or badge class belongs to. */
  function Hue(priority: string): string
  {
    match priority
    case "high" => "red"
    case "medium" => "yellow"
    case "low" => "green"
    case _ => "gray"
  }

  /** Border and badge agree on every known priority; an unknown one gets a gray border
      but a green badge. */
  lemma BorderAndBadgeAgree(priority: string)
    ensures priority in KnownPriorities ==>
      && PriorityBorder(priority) == "border-l-" + Hue(priority) + "-500"
      && PriorityBadge(priority) == "bg-" + Hue(priority) + "-100 text-" + Hue(priority) + "-800"
    ensures priority !in KnownPriorities ==>
      && PriorityBorder(priority) == "border-l-gray-500"
      && PriorityBadge(priority) == "bg-green-100 text-green-800"
  {
    if priority == "high" {
      assert "border-l-" + "red" + "-500" == "border-l-red-500";
      assert "bg-" + "red" + "-100 text-" + "red" + "-800" == "bg-red-100 text-red-800";
    } else if priority == "medium" {
      assert "border-l-" + "yellow" + "-500" == "border-l-yellow-500";
      assert "bg-" + "yellow" + "-100 text-" + "yellow" + "-800" == "bg-yellow-100 text-yellow-800";
    } else if priority == "low" {
      assert "border-l-" + "green" + "-500" == "border-l-green-500";
      assert "bg-" + "green" + "-100 text-" + "green" + "-800" == "bg-green-100 text-green-800";
    }
  }

  /** Every card of the seed feed has a coloured border and a matching badge. */
  lemma SeedFeedColours(i: int)
    requires 0 <= i < |SeedInsights|
    ensures PriorityBorder(SeedInsights[i].priority) != "border-l-gray-500"
    ensures Hue(SeedInsights[i].priority) != "gray"
  {
    SeedFeedWellFormed();
  }
}

=== FILE: seed_consistency.dfy ===
/** The two panels keep their own seed lists and never consult each other; this module only
    records that the lists describe the same five drivers and vehicles. */
module SeedConsistency {
  import DeliveryMap
  import DriverPanel

  /** Each seed driver's vehicle reference names the seed vehicle that lists that driver. */
  lemma SeedReferencesResolve(i: nat)
    requires i < |DriverPanel.SeedRoster|
    ensures i < |DeliveryMap.SeedFleet|
    ensures DriverPanel.SeedRoster[i].vehicle == DeliveryMap.SeedFleet[i].id
    ensures DriverPanel.SeedRoster[i].name == DeliveryMap.SeedFleet[i].driver
  {
  }
}
